=== FILE: README.md ===
# reasked-node: a verified model of the SDK core

This project models the request core of the Reasked Node SDK. The SDK fetches FAQ groups from the Reasked API, and it comes in two variants that share one design:

- the all-in-one `Reasked` class (`src/reasked.ts`);
- the `HttpClient` transport (`src/client.ts`) used by `FaqService` (`src/services/faq.ts`).

Both variants resolve their settings from the constructor options with JavaScript's `||`. Each request then builds the settings it hands to `fetch`, and runs a loop of at most `retries + 1` attempts. The loop has a per-attempt timeout and an exponential backoff between attempts. The FAQ lookups build an endpoint with an optional query string. They fold the remote's error status, a missing payload and any thrown error into a single response envelope.

Modules:

- `Js`: the JavaScript semantics the logic relies on, namely optional values, truthiness, the `x || fallback` idiom, integers rendered in template strings, and `join`.
- `Records`: a plain object used as a header set, plus assignment and object spread. The model keeps every key in the order it was added. JavaScript lists keys that are array indices (`"0"`, `"42"`) first, in ascending order, and all other keys in the order they were added. `NamedKeys` picks out those other keys, whose order the model does describe.
- `UrlSearchParams`: the `application/x-www-form-urlencoded` serializer of the WHATWG URL Standard (section 5.2), as `URLSearchParams.toString()` applies it.
- `Types`: the option, request and envelope shapes.
- `Retry`: the attempt loop, which the two `request` methods share (their loops are textually identical). It has two parts:
  - `Drive`, a function that is the loop's specification;
  - `RunAttempts`, the imperative loop, proved equal to `Drive`.
- `Client`: `HttpClient`, its option resolution and its three-layer header merge.
- `Faq`: the query and endpoint builders, the response normalization, and `FaqService`.
- `ReaskedSdk`: the `Reasked` class, its own header shaping and its two lookups.

The network is an oracle: `fetch(k)` gives how attempt `k` ends. It can end with the parsed body, a non-2xx response with the parsed error `message`, an `AbortError` from the timer, or another error. Each call returns two things:

- the request it hands to `fetch`;
- a `Run`, which records the outcome, the number of attempts and the backoff delays slept.

## Model

| member | source | states |
|---|---|---|
| Js.StringOr | src/client.ts:16 | `x \|\| fallback` on an optional string. A non-empty string is kept; `undefined` and `""` give the fallback. |
| Js.Truthy | src/client.ts:120 | A value is falsy exactly when it is `undefined`, `null`, `false`, `0` or `""`. Every other value, an empty array or object included, is truthy. |
| Js.Join | src/services/faq.ts:17 | `join` of no parts is `""`, and of one part is that part. With more parts the text starts with the first part and the separator. |
| Js.JoinSnoc | src/services/faq.ts:17 | For any non-empty list, joining one more part appends the separator and that part. With `Join`'s contract, this fixes the text for lists of every length. |
| Js.NumberOr | src/client.ts:17-18 | `x \|\| fallback` on an optional number. Every non-zero number is kept, negative ones included; `undefined` and `0` give the fallback. |
| Js.BoolOr | src/client.ts:19 | `debug \|\| false` is true exactly when `debug` is `true`. |
| Js.NatToStringRoundTrip | src/client.ts:75 | Reading back the decimal digits of a rendered status or timeout gives the number. |
| Js.IntToString | src/client.ts:87 | A rendered integer is non-empty and starts with `-` exactly when it is negative. |
| Js.NatToStringInjective | src/client.ts:87 | Different naturals render as different digit strings. |
| Js.IntToStringInjective | src/client.ts:87 | Different integers, negative ones included, render as different strings. |
| Records.Get | src/client.ts:41-46 | An own-key lookup (no prototype chain) is defined exactly when the key is an own key of the record. |
| Records.Assign | src/client.ts:44-45 | Assigning a key updates it where it stands, or appends it when new; every other key keeps its value. |
| Records.Overlay | src/client.ts:41-46 | In `{...a, ...b}`, each key takes `b`'s value when `b` has it, and `a`'s value otherwise. |
| Records.OverlayKeyOrder | src/client.ts:41-46 | Spread keeps `a`'s keys in place and appends the keys only `b` has, in `b`'s order. |
| Records.NamedKeys | src/client.ts:41-46 | The keys that are not array indices, in order: every one is a key of the list and none is an array index. |
| UrlSearchParams.Encode | src/services/faq.ts:19 | The serialization of a name or value uses only unreserved characters, `+` and `%`, and is never shorter than its input. |
| UrlSearchParams.EncodeUnreserved | src/services/faq.ts:16 | Letters, digits and `*-._` are sent as they are, so `status` and the status names are not altered. |
| UrlSearchParams.EncodeConcat | src/services/faq.ts:17 | Encoding works character by character: it distributes over concatenation. |
| UrlSearchParams.SerializeShape | src/services/faq.ts:19 | The query text is empty exactly when no pair was appended, and holds an `&` exactly when at least two were. |
| UrlSearchParams.Serialize | src/services/faq.ts:19 | `params.toString()` uses only serialized characters, `=` and `&`. |
| Retry.Backoffs | src/client.ts:97-100 | Before attempt `i + 1`, the loop sleeps `2^i * 1000` ms. |
| Retry.Backoff | src/client.ts:98 | The backoff before retrying attempt `attempt` is at least 1000 ms. |
| Retry.BackoffDoubles | src/client.ts:98 | Each backoff is twice the one before it. |
| Retry.FailureError | src/client.ts:70-77 | A failed response raises its body's `message` when that is non-empty, and `API request failed: {status} {statusText}` otherwise. Any other error keeps its own message. |
| Retry.TimeoutError | src/client.ts:87 | The timeout error is an `Error` whose message starts with `Request timeout after ` and ends with `ms`. |
| Retry.TimeoutErrorNamesTimeout | src/client.ts:87 | Two timeouts give the same message only when they are equal, so the message names the timeout. This includes negative timeouts, which `\|\|` keeps. |
| Retry.Drive | src/client.ts:50-104 | A negative budget runs no attempt and throws `null`. Otherwise between 1 and `retries + 1` attempts run, with one delay between each two. |
| Retry.DriveFromShape | src/client.ts:52-101 | From attempt `attempt` on: the run ends within the budget, each delay is the backoff of its attempt, every attempt before the last failed retryably, and the last one settles the outcome. |
| Retry.DriveFromDelays | src/client.ts:92-100 | From attempt `attempt` on: the attempt count is within the budget, and the delays are the backoffs of the attempts that were retried. |
| Retry.DriveFromEnd | src/client.ts:52-95 | From attempt `attempt` on: every attempt before the last failed retryably, and the last one succeeds, times out, or fails on the final permitted attempt. |
| Retry.DriveFromRetry | src/client.ts:92-100 | A retryable failure before the final attempt leaves the outcome and the attempt count to the next attempt. |
| Retry.DriveFromStop | src/client.ts:79-95 | Any other attempt within the budget is the last one: a success returns its body, a timeout throws the timeout error, and a failure on the final permitted attempt throws its own error. |
| Retry.DriveFromRetried | src/client.ts:90-100 | From attempt `attempt` on: the attempt count is within the budget, and every attempt before the last failed retryably. |
| Retry.DriveFromSettles | src/client.ts:79-95 | From attempt `attempt` on: the last attempt settles the outcome. |
| Retry.DriveSpec | src/client.ts:50-104 | For every oracle: a negative budget runs no attempt and throws `null`. Otherwise 1 to `retries + 1` attempts run. Every attempt before the last failed retryably, the delays are the backoff schedule, and the last attempt decides the outcome. |
| Retry.EndsAtFirstDecisive | src/client.ts:52-88 | The call ends on the first attempt, within the budget, that succeeds or times out. |
| Retry.FirstOkReturned | src/client.ts:79-81 | The first successful attempt `k` returns its body after `k + 1` attempts and `k` delays. |
| Retry.AbortStopsAtOnce | src/client.ts:85-88 | A timeout on attempt `k` throws `Request timeout after {timeout}ms` at once, whatever budget remains. |
| Retry.AllFailuresExhaustBudget | src/client.ts:92-100 | When every attempt fails retryably, exactly `retries + 1` attempts run. The delays are 1000, 2000, …, `2^(retries-1) * 1000`, and the last attempt's error is thrown. |
| Retry.NullOnlyWithoutBudget | src/client.ts:104 | The call throws `null` (the untouched `lastError`) exactly when the effective budget is negative. |
| Retry.DriveIgnoresUnusedAttempts | src/client.ts:52 | The call only looks at attempts 0 to `retries`: two oracles that agree there give the same run. |
| Retry.RetryStep | src/client.ts:92-100 | A retryable failure before the final attempt adds its backoff delay and continues with the next attempt. |
| Retry.RunAttempts | src/client.ts:50-104 | The imperative attempt loop. It has the `lastError` variable, the early returns and the fall-through `throw`, and it computes exactly `Drive`. The loop in src/reasked.ts:225-279 is the same. |
| Client.ResolveConfig | src/client.ts:10-20 | Construction fails with `API key is required` exactly when the key is empty. Otherwise each absent or falsy option takes its default (`https://api.reasked.com`, 30000, 3, false), so `retries: 0` gives 3. Any truthy option is kept. |
| Client.EffectiveTimeout | src/client.ts:34 | A per-call timeout wins unless it is absent or 0. Otherwise the instance timeout applies. |
| Client.EffectiveRetries | src/client.ts:35 | A per-call budget wins unless it is absent or 0. Otherwise the instance budget applies. |
| Client.DefaultHeaders | src/client.ts:42-43 | The default headers are `Authorization: Bearer {key}` and then `Content-Type: application/json`, and nothing else. |
| Client.MergedHeaders | src/client.ts:41-46 | Per key, per-call headers win over the request's own headers, which win over `Authorization: Bearer {key}` and `Content-Type: application/json`. |
| Client.DefaultsComeFirst | src/client.ts:41-46 | The merged header object holds `Authorization` and then `Content-Type` as its first keys. Among the keys that are not array indices, which is the order JavaScript lists them in, these two always come first. |
| Client.ClientInit | src/client.ts:40-48 | `method` and `body` are copied from the request. When the request sets its own `headers`, they replace the merged object; otherwise the merge is sent. |
| Client.OwnHeadersReplaceMerge | src/client.ts:40-48 | When the request sets its own headers, a key they lack, `Authorization` included, is not sent. |
| Client.PayloadInit | src/client.ts:116-122 | A request with a payload carries a body exactly when `data` is truthy, and that body is `data`. |
| Client.HttpClient.constructor | src/client.ts:15-19 | The five fields hold the resolved settings. |
| Client.HttpClient.Create | src/client.ts:10-20 | `new HttpClient(apiKey, options = {})` throws for an empty key. Otherwise it yields a client holding `ResolveConfig`'s settings; absent options act as `{}`. |
| Client.HttpClient.Request | src/client.ts:28-105 | Every attempt sends `ClientInit`'s settings to `baseURL + endpoint`, and the run is `Drive` with the effective budget and timeout. |
| Client.HttpClient.Get | src/client.ts:107-109 | A GET sends the merged headers and no body. |
| Client.HttpClient.Post | src/client.ts:111-124 | A POST sends the merged headers, and a body exactly when `data` is truthy. |
| Client.HttpClient.Put | src/client.ts:126-139 | A PUT sends the merged headers, and a body exactly when `data` is truthy. |
| Client.HttpClient.Patch | src/client.ts:141-154 | A PATCH sends the merged headers, and a body exactly when `data` is truthy. |
| Client.HttpClient.Delete | src/client.ts:156-161 | A DELETE sends the merged headers and no body. |
| Faq.QueryPairs | src/services/faq.ts:14-17 | One pair per given field: `status` with the status name comes first, and `langs` with the comma-joined list comes last. |
| Faq.QueryString | src/services/faq.ts:19 | The query uses only serialized characters, `=` and `&`. |
| Faq.SlugEndpoint | src/services/faq.ts:20-22 | The slug endpoint starts with `/faq-groups/slug/{slug}`. |
| Faq.IdEndpoint | src/services/faq.ts:65 | The id endpoint starts with `/faq-groups/{id}`. |
| Faq.QueryStringShape | src/services/faq.ts:14-19 | Case by case, the query is: nothing; `status=…`; `langs=…`; or `status=…&langs=…`. `status` always comes first, and `langs` is comma-joined and then serialized. |
| Faq.EmptyLangsStillSent | src/services/faq.ts:17 | An empty `langs` list is truthy, so an empty `langs=` parameter is still sent. |
| Faq.QueryPresence | src/services/faq.ts:16-19 | A query is added exactly when a filter field is given. It holds two parameters exactly when both fields are given. |
| Faq.SlugEndpointShape | src/services/faq.ts:19-22 | With no filter field, the endpoint is exactly `/faq-groups/slug/{slug}`; otherwise it is that path, then `?`, then a non-empty query. |
| Faq.IdEndpointShape | src/services/faq.ts:64-65 | With no filter field, the endpoint is exactly `/faq-groups/{id}`; otherwise it is that path, then `?`, then a non-empty query. |
| Faq.SlugEndpointBoth | src/services/faq.ts:14-22 | With both filter fields, the endpoint is `/faq-groups/slug/{slug}?status={status}&langs={serialized langs}`. |
| Faq.ExampleSlugEndpoint | src/services/faq.ts:14-22 | The slug `abc` with status `published` and languages `en` and `fr` requests `/faq-groups/slug/abc?status=published&langs=en%2Cfr`. |
| Faq.TwoLangs | src/services/faq.ts:17 | Two alphanumeric language codes are sent as `a%2Cb`. |
| Faq.IdCanNameSlugEndpoint | src/services/faq.ts:65 | The id is inserted unescaped, so the id `slug/{s}` requests the slug endpoint of `s`. |
| Faq.ThrownMessage | src/services/faq.ts:47 | An `Error` gives its message; a thrown `null` gives `Unknown error`. |
| Faq.Normalize | src/services/faq.ts:29-49 | The envelope is successful exactly when the remote reply has no `error` status and has `data`, and then it is the reply unchanged. A remote error keeps its message. A reply without data gives `No data returned from Reasked API`. A thrown error gives an error envelope with its message. |
| Faq.NormalizeIdempotent | src/services/faq.ts:29-43 | Normalizing an envelope a lookup returned changes nothing. |
| Faq.UnknownErrorWithoutBudget | src/services/faq.ts:44-49 | A lookup reports `Unknown error` when the client's budget is negative. That budget runs no attempt and throws `null`. |
| Faq.ThrownErrorsKeepTheirMessage | src/services/faq.ts:44-49 | With a non-negative budget, every rejection is an `Error`, and the lookup reports its message. |
| Faq.FaqService.constructor | src/services/faq.ts:5 | The service holds the client it is given. |
| Faq.FaqService.GetFaqGroupBySlug | src/services/faq.ts:10-50 | A lookup sends a GET of `baseURL` plus the slug endpoint, with the default headers and no body. It uses the client's own budget and timeout, and returns the normalized outcome. |
| Faq.FaqService.GetFaqGroupById | src/services/faq.ts:55-93 | The same, for the id endpoint. |
| ReaskedSdk.ReaskedInit | src/reasked.ts:216-223 | `method` and `body` are copied. The request's own headers replace the defaults; otherwise only the two defaults are sent. |
| ReaskedSdk.SameAsClientWithoutPerCallHeaders | src/reasked.ts:216-223 | Without per-call headers, `Reasked` and `HttpClient` hand `fetch` the same settings. |
| ReaskedSdk.PerCallHeadersIgnored | src/reasked.ts:216-223 | A per-call header that is not a default header is sent by `HttpClient` but never by `Reasked`. |
| ReaskedSdk.ReaskedNormalize | src/reasked.ts:109-144 | Same as `Faq.Normalize`, except for a successful reply whose `data` has no `faqs`. Reading `faqs.length` for the debug message throws a `TypeError` there, so the lookup reports that error's message. |
| ReaskedSdk.VariantsDifferOnMissingFaqs | src/reasked.ts:130-133 | The two variants' lookups give different envelopes exactly when a successful reply lacks `faqs`. `FaqService` then returns the reply unchanged. |
| ReaskedSdk.Reasked.constructor | src/reasked.ts:74-79 | The five fields hold the resolved settings. |
| ReaskedSdk.Reasked.Create | src/reasked.ts:70-80 | `new Reasked(apiKey, options)` throws `API key is required` for an empty key. Otherwise it holds `ResolveConfig`'s settings. |
| ReaskedSdk.Reasked.Request | src/reasked.ts:204-280 | Every attempt sends `ReaskedInit`'s settings to `baseURL + endpoint`, and the run is `Drive` with the effective budget and timeout. |
| ReaskedSdk.Reasked.Get | src/reasked.ts:282-287 | A GET sends the two default headers and no body. |
| ReaskedSdk.Reasked.Post | src/reasked.ts:289-302 | A POST sends the default headers, and a body exactly when `data` is truthy. |
| ReaskedSdk.Reasked.Put | src/reasked.ts:304-317 | A PUT sends the default headers, and a body exactly when `data` is truthy. |
| ReaskedSdk.Reasked.Delete | src/reasked.ts:319-324 | A DELETE sends the default headers and no body. |
| ReaskedSdk.Reasked.Patch | src/reasked.ts:326-339 | A PATCH sends the default headers, and a body exactly when `data` is truthy. |
| ReaskedSdk.Reasked.GetFaqGroupBySlug | src/reasked.ts:88-145 | A GET of the slug endpoint with the default headers, the instance budget and timeout. The result is the outcome normalized by `ReaskedNormalize`. |
| ReaskedSdk.Reasked.GetFaqGroupById | src/reasked.ts:147-202 | A GET of the id endpoint with the default headers, the instance budget and timeout. The result is the outcome normalized by `ReaskedNormalize`. |

Notes on the source:

- The no-data message follows the code, which says "No data returned from Reasked API".
- A body is left out when `data` is falsy, not only when it is absent, so `0`, `""` and `false` are not sent.
- The slug and the id are inserted into the path unescaped.
- A negative `retries` is truthy, so it is kept. With it, no attempt runs and `null` is thrown. The lookups report that as "Unknown error".

## Left out

- `fetch`, `AbortController`, `setTimeout` and the sleeps are foreign asynchronous I/O and timers. They are replaced by the outcome oracle and the delay log. Every `AbortError` is treated as the timeout, as the code treats it.
- `JSON.stringify` and `response.json()` are opaque library calls. The body is kept as a JSON-like value, and a failed response carries only the parsed `message`, if any. A success body that cannot be parsed counts as an ordinary failed attempt (`OtherError`).
- `debugLog` and `console.log` are output and are not modelled. The `debug` setting is still resolved and stored. The arguments of a debug message are evaluated whether or not `debug` is on. The one that can throw, `response.data.faqs.length` at src/reasked.ts:130-132 and 187-189, is modelled by `ReaskedNormalize`.
- ReaskedSdk.Reasked.GetFaqGroupBySlug: only an absent `faqs` is modelled (`Types.FaqGroup.faqs` is `None`). A `faqs` that is `null` would throw as well, and any other value would not throw; the reply is unchecked JSON of any shape. The `TypeError` text is the one V8 produces.
- ReaskedSdk.Reasked.GetFaqGroupById: the same as for the slug lookup.
- Numbers are integers. Floating point, `NaN` and fractional `timeout`/`retries` are not modelled. A fractional budget would make `attempt === retries` never hold.
- Retry.Backoff: `Math.pow(2, attempt) * 1000` is exact here. JavaScript doubles lose precision past 2^53, which is far beyond any budget used in practice.
- Faq.Normalize: a successful reply is assumed to parse to an object. A 2xx body of `null` is not modelled. The client resolves with it, `response.status` at src/services/faq.ts:29 and :72 then throws a `TypeError`, and the lookup reports `Cannot read properties of null (reading 'status')` through its `catch`.
- ReaskedSdk.ReaskedNormalize: the same `null` body is not modelled. Here the `TypeError` comes from the debug argument `response.status` at src/reasked.ts:112 and :169, which is evaluated even with debugging off, and the `catch` reports it the same way.
- An own `headers: undefined` in the request settings is modelled as absent. The trailing spread would copy that `undefined` over the merged headers; the verb wrappers never set `headers`.
- Records.Assign: a new key is appended in the model. JavaScript instead places a new array-index key (such as `"0"`) among the array-index keys, in ascending order, ahead of all other keys. Lookups and values are unaffected; only the enumeration order of such keys differs.
- Records.OverlayKeyOrder: the stated order is insertion order for every key. For array-index keys, JavaScript's order is ascending and comes first, so the lemma is exact only for keys that are not array indices.
- Client.DefaultsComeFirst: its first clause is the model's insertion order. A caller's array-index header key (for example `"0"`) would be enumerated before `Authorization` in JavaScript. The second clause states the order that holds in JavaScript: the two defaults come first among the keys that are not array indices.
- Headers are plain objects with case-sensitive keys. A `Headers` instance or an array of pairs as `HeadersInit` is not modelled.
- `new Reasked(apiKey)` without options throws a `TypeError` when it reads `options.host`. `ReaskedSdk.Reasked.Create` takes its options as required.
- Strings with lone surrogates are not modelled for `URLSearchParams`, which would replace them with U+FFFD.
- Concurrency between calls is not modelled: each call owns its controller and timer, and no state is shared.
- src/types.ts, src/index.ts and the declarations at src/reasked.ts:1-61 are declarations and re-exports only. They only shape the datatypes.

=== FILE: client.dfy ===
/** src/client.ts: `HttpClient`, the transport every FAQ lookup goes
    through. Its constructor checks the key and fills in defaults; `request`
    merges the headers, picks the effective timeout and retry budget, and runs
    the attempt loop; the verb wrappers fix the method and the body. */
module Client {
  import opened Js
  import opened Records
  import opened Types
  import opened Retry

  const DefaultHost := "https://api.reasked.com"
  const DefaultTimeout := 30000
  const DefaultRetries := 3
  const MissingKeyMessage := "API key is required"

  /** The five settings a client holds. */
  datatype Config = Config(baseURL: string, apiKey: string, timeout: int, retries: int, debug: bool)

  /** The constructor's check and defaults: an empty key is refused before
      anything is set; every option that is absent or falsy (`""`, `0`,
      `false`) takes its default, so `retries: 0` gives 3 retries and
      `timeout: 0` gives 30000 ms. */
  function ResolveConfig(apiKey: string, options: ReaskedOptions): (r: Result<Config, string>)
    ensures r.Failure? <==> apiKey == ""
    ensures r.Failure? ==> r.error == MissingKeyMessage
    ensures r.Success? ==> r.value.apiKey == apiKey
    ensures r.Success? ==>
      && (options.host == None || options.host == Some("") ==> r.value.baseURL == DefaultHost)
      && (options.host.Some? && options.host.value != "" ==> r.value.baseURL == options.host.value)
      && (options.timeout == None || options.timeout == Some(0) ==> r.value.timeout == DefaultTimeout)
      && (options.timeout.Some? && options.timeout.value != 0 ==> r.value.timeout == options.timeout.value)
      && (options.retries == None || options.retries == Some(0) ==> r.value.retries == DefaultRetries)
      && (options.retries.Some? && options.retries.value != 0 ==> r.value.retries == options.retries.value)
      && (r.value.debug <==> options.debug == Some(true))
  {
    if apiKey == "" then Failure(MissingKeyMessage)
    else
      Success(Config(
        StringOr(options.host, DefaultHost),
        apiKey,
        NumberOr(options.timeout, DefaultTimeout),
        NumberOr(options.retries, DefaultRetries),
        BoolOr(options.debug, false)))
  }

  /** `requestOptions?.timeout || this.timeout`: a per-call timeout wins
      unless it is absent or 0. */
  function EffectiveTimeout(requestOptions: Option<RequestOptions>, instance: int): (t: int)
    ensures (requestOptions.Some? && requestOptions.value.timeout.Some? && requestOptions.value.timeout.value != 0)
      ==> t == requestOptions.value.timeout.value
    ensures t == instance || (requestOptions.Some? && requestOptions.value.timeout == Some(t) && t != 0)
  {
    if requestOptions.Some? then NumberOr(requestOptions.value.timeout, instance) else instance
  }

  /** `requestOptions?.retries || this.retries`: a per-call budget wins
      unless it is absent or 0, so a per-call 0 keeps the instance budget. */
  function EffectiveRetries(requestOptions: Option<RequestOptions>, instance: int): (n: int)
    ensures (requestOptions.Some? && requestOptions.value.retries.Some? && requestOptions.value.retries.value != 0)
      ==> n == requestOptions.value.retries.value
    ensures n == instance || (requestOptions.Some? && requestOptions.value.retries == Some(n) && n != 0)
  {
    if requestOptions.Some? then NumberOr(requestOptions.value.retries, instance) else instance
  }

  /** The two headers every request starts from, in this order. */
  function DefaultHeaders(apiKey: string): (h: Record)
    ensures Keys(h) == ["Authorization", "Content-Type"]
    ensures Get(h, "Authorization") == Some("Bearer " + apiKey)
    ensures Get(h, "Content-Type") == Some("application/json")
  {
    var h := [("Authorization", "Bearer " + apiKey), ("Content-Type", "application/json")];
    assert Keys(h) == ["Authorization", "Content-Type"];
    h
  }

  /** `{...requestOptions?.headers}` */
  function PerCallHeaders(requestOptions: Option<RequestOptions>): Record {
    if requestOptions.Some? && requestOptions.value.headers.Some? then requestOptions.value.headers.value else Empty
  }

  /** The three-layer header object: the defaults, then the request's own
      headers, then the per-call headers; for each key the last layer that
      has it wins. */
  function MergedHeaders(apiKey: string, own: Record, perCall: Record): (r: Record)
    ensures forall k :: Get(perCall, k).Some? ==> Get(r, k) == Get(perCall, k)
    ensures forall k :: Get(perCall, k).None? && Get(own, k).Some? ==> Get(r, k) == Get(own, k)
    ensures forall k :: Get(perCall, k).None? && Get(own, k).None? ==> Get(r, k) == Get(DefaultHeaders(apiKey), k)
  {
    Overlay(Overlay(DefaultHeaders(apiKey), own), perCall)
  }

  /** Whatever the caller adds, the merged object holds `Authorization`
      and `Content-Type` first. JavaScript enumerates header names that are
      array indices ahead of them; among all other names they come first. */
  lemma DefaultsComeFirst(apiKey: string, own: Record, perCall: Record)
    ensures var ks := Keys(MergedHeaders(apiKey, own, perCall));
      |ks| >= 2 && ks[0] == "Authorization" && ks[1] == "Content-Type"
    ensures var nk := NamedKeys(Keys(MergedHeaders(apiKey, own, perCall)));
      |nk| >= 2 && nk[0] == "Authorization" && nk[1] == "Content-Type"
  {
    var d := DefaultHeaders(apiKey);
    var mid := Overlay(d, own);
    var merged := MergedHeaders(apiKey, own, perCall);
    assert merged == Overlay(mid, perCall);
    OverlayKeepsPrefix(d, own);
    OverlayKeepsPrefix(mid, perCall);
    DefaultNamesAreNamed(apiKey);
    AllNamed(Keys(d));
    NamedKeysPrefix(Keys(d), Keys(merged));
  }

  lemma DefaultNamesAreNamed(apiKey: string)
    ensures forall i :: 0 <= i < |Keys(DefaultHeaders(apiKey))| ==> !ArrayIndex(Keys(DefaultHeaders(apiKey))[i])
  {
    var ks := Keys(DefaultHeaders(apiKey));
    assert !('0' <= ks[0][0] <= '9');
    assert !('0' <= ks[1][0] <= '9');
  }

  /** `{ headers: {...}, ...options }`: the settings handed to fetch. The
      trailing spread copies `method` and `body`, and, when the request sets
      its own `headers`, replaces the merged object with them. */
  function ClientInit(apiKey: string, options: RequestInit, requestOptions: Option<RequestOptions>): (r: RequestInit)
    ensures r.verb == options.verb && r.body == options.body
    ensures options.headers.Some? ==> r.headers == options.headers
    ensures options.headers.None? ==>
      r.headers == Some(MergedHeaders(apiKey, Empty, PerCallHeaders(requestOptions)))
  {
    var merged := MergedHeaders(apiKey, options.headers.GetOr(Empty), PerCallHeaders(requestOptions));
    RequestInit(options.verb, if options.headers.Some? then options.headers else Some(merged), options.body)
  }

  /** When the request sets its own headers, neither the defaults nor the
      per-call headers reach fetch: a key the request does not list, such
      as `Authorization`, is not sent. */
  lemma OwnHeadersReplaceMerge(apiKey: string, options: RequestInit, requestOptions: Option<RequestOptions>, k: string)
    requires options.headers.Some? && Get(options.headers.value, k) == None
    ensures Get(ClientInit(apiKey, options, requestOptions).headers.value, k) == None
  {
  }

  /** The settings of `post`/`put`/`patch`: the body is `data` exactly when
      `data` is truthy, and absent otherwise. */
  function PayloadInit(verb: Method, data: JsValue): (r: RequestInit)
    ensures r.verb == Some(verb) && r.headers == None
    ensures r.body.Some? <==> Truthy(data)
    ensures r.body.Some? ==> r.body.value == data
  {
    RequestInit(Some(verb), None, if Truthy(data) then Some(data) else None)
  }

  class HttpClient {
    const baseURL: string
    const apiKey: string
    const timeout: int
    const retries: int
    const debug: bool

    function Settings(): Config {
      Config(baseURL, apiKey, timeout, retries, debug)
    }

    /** The field assignments of the constructor, once the key is known to
        be non-empty. */
    constructor (config: Config)
      requires config.apiKey != ""
      ensures Settings() == config
    {
      baseURL := config.baseURL;
      apiKey := config.apiKey;
      timeout := config.timeout;
      retries := config.retries;
      debug := config.debug;
    }

    /** `new HttpClient(apiKey, options = {})`: throws "API key is required"
        for an empty key, otherwise a client with the resolved settings. */
    static method Create(apiKey: string, options: Option<ReaskedOptions>) returns (r: Result<HttpClient, string>)
      ensures r.Failure? <==> apiKey == ""
      ensures r.Failure? ==> r.error == MissingKeyMessage
      ensures r.Success? ==> r.value.Settings() == ResolveConfig(apiKey, options.GetOr(NoOptions)).value
    {
      var config := ResolveConfig(apiKey, options.GetOr(NoOptions));
      if config.Failure? {
        return Failure(config.error);
      }
      var client := new HttpClient(config.value);
      return Success(client);
    }

    /** `request(endpoint, options, requestOptions)`: every attempt sends
        the same request to `baseURL + endpoint`, and the attempts follow
        `Drive` with the effective budget and timeout. */
    method Request<T>(endpoint: string, options: RequestInit, requestOptions: Option<RequestOptions>, fetch: nat -> FetchOutcome<T>)
      returns (sent: FetchRequest, run: Run<T>)
      ensures sent == FetchRequest(baseURL + endpoint, ClientInit(apiKey, options, requestOptions))
      ensures run == Drive(fetch, EffectiveRetries(requestOptions, retries), EffectiveTimeout(requestOptions, timeout))
    {
      var url := baseURL + endpoint;
      var effectiveTimeout := EffectiveTimeout(requestOptions, timeout);
      var effectiveRetries := EffectiveRetries(requestOptions, retries);
      sent := FetchRequest(url, ClientInit(apiKey, options, requestOptions));
      run := RunAttempts(fetch, effectiveRetries, effectiveTimeout);
    }

    method Get<T>(endpoint: string, options: Option<RequestOptions>, fetch: nat -> FetchOutcome<T>)
      returns (sent: FetchRequest, run: Run<T>)
      ensures sent.url == baseURL + endpoint
      ensures sent.init == RequestInit(Some(GET), Some(MergedHeaders(apiKey, Empty, PerCallHeaders(options))), None)
      ensures run == Drive(fetch, EffectiveRetries(options, retries), EffectiveTimeout(options, timeout))
    {
      sent, run := Request(endpoint, RequestInit(Some(GET), None, None), options, fetch);
    }

    method Post<T>(endpoint: string, data: JsValue, options: Option<RequestOptions>, fetch: nat -> FetchOutcome<T>)
      returns (sent: FetchRequest, run: Run<T>)
      ensures sent.url == baseURL + endpoint && sent.init.verb == Some(POST)
      ensures sent.init.headers == Some(MergedHeaders(apiKey, Empty, PerCallHeaders(options)))
      ensures sent.init.body.Some? <==> Truthy(data)
      ensures sent.init.body.Some? ==> sent.init.body.value == data
      ensures run == Drive(fetch, EffectiveRetries(options, retries), EffectiveTimeout(options, timeout))
    {
      sent, run := Request(endpoint, PayloadInit(POST, data), options, fetch);
    }

    method Put<T>(endpoint: string, data: JsValue, options: Option<RequestOptions>, fetch: nat -> FetchOutcome<T>)
      returns (sent: FetchRequest, run: Run<T>)
      ensures sent.url == baseURL + endpoint && sent.init.verb == Some(PUT)
      ensures sent.init.headers == Some(MergedHeaders(apiKey, Empty, PerCallHeaders(options)))
      ensures sent.init.body.Some? <==> Truthy(data)
      ensures sent.init.body.Some? ==> sent.init.body.value == data
      ensures run == Drive(fetch, EffectiveRetries(options, retries), EffectiveTimeout(options, timeout))
    {
      sent, run := Request(endpoint, PayloadInit(PUT, data), options, fetch);
    }

    method Patch<T>(endpoint: string, data: JsValue, options: Option<RequestOptions>, fetch: nat -> FetchOutcome<T>)
      returns (sent: FetchRequest, run: Run<T>)
      ensures sent.url == baseURL + endpoint && sent.init.verb == Some(PATCH)
      ensures sent.init.headers == Some(MergedHeaders(apiKey, Empty, PerCallHeaders(options)))
      ensures sent.init.body.Some? <==> Truthy(data)
      ensures sent.init.body.Some? ==> sent.init.body.value == data
      ensures run == Drive(fetch, EffectiveRetries(options, retries), EffectiveTimeout(options, timeout))
    {
      sent, run := Request(endpoint, PayloadInit(PATCH, data), options, fetch);
    }

    method Delete<T>(endpoint: string, options: Option<RequestOptions>, fetch: nat -> FetchOutcome<T>)
      returns (sent: FetchRequest, run: Run<T>)
      ensures sent.url == baseURL + endpoint
      ensures sent.init == RequestInit(Some(DELETE), Some(MergedHeaders(apiKey, Empty, PerCallHeaders(options))), None)
      ensures run == Drive(fetch, EffectiveRetries(options, retries), EffectiveTimeout(options, timeout))
    {
      sent, run := Request(endpoint, RequestInit(Some(DELETE), None, None), options, fetch);
    }
  }
}

=== FILE: faq.dfy ===
/** src/services/faq.ts: `FaqService`, the two FAQ group lookups. Each
    builds an endpoint with an optional query string, issues a GET through the
    client, and folds the remote's error status, a missing payload and any
    thrown error into one envelope, never rejecting. */
module Faq {
  import opened Js
  import opened Types
  import opened Retry
  import UrlSearchParams
  import Client

  const NoDataMessage := "No data returned from Reasked API"
  const UnknownErrorMessage := "Unknown error"

  /** The pairs appended to the `URLSearchParams`: `status` if given, then
      `langs` comma-joined if given (an empty list is still given). */
  function QueryPairs(options: Option<QueryOptions>): (ps: seq<(string, string)>)
    ensures |ps| == (if HasStatus(options) then 1 else 0) + (if HasLangs(options) then 1 else 0)
    ensures HasStatus(options) ==> ps[0] == ("status", options.value.status.value.Name())
    ensures HasLangs(options) ==> ps[|ps| - 1] == ("langs", Join(options.value.langs.value, ","))
  {
    var status := if options.Some? && options.value.status.Some?
      then [("status", options.value.status.value.Name())] else [];
    var langs := if options.Some? && options.value.langs.Some?
      then [("langs", Join(options.value.langs.value, ","))] else [];
    status + langs
  }

  function QueryString(options: Option<QueryOptions>): (q: string)
    ensures forall i :: 0 <= i < |q| ==> UrlSearchParams.Serialized(q[i]) || q[i] == '=' || q[i] == '&'
  {
    UrlSearchParams.Serialize(QueryPairs(options))
  }

  /** `path` followed by `?query` when the query is non-empty. */
  function WithQuery(path: string, options: Option<QueryOptions>): string {
    var q := QueryString(options);
    path + if q != "" then "?" + q else ""
  }

  function SlugEndpoint(slug: string, options: Option<QueryOptions>): (e: string)
    ensures "/faq-groups/slug/" + slug <= e
  {
    WithQuery("/faq-groups/slug/" + slug, options)
  }

  function IdEndpoint(id: string, options: Option<QueryOptions>): (e: string)
    ensures "/faq-groups/" + id <= e
  {
    WithQuery("/faq-groups/" + id, options)
  }

  predicate HasStatus(options: Option<QueryOptions>) {
    options.Some? && options.value.status.Some?
  }

  predicate HasLangs(options: Option<QueryOptions>) {
    options.Some? && options.value.langs.Some?
  }

  /** The parameter names and status names contain only letters, so they
      are sent as they are. */
  lemma StatusNameUnreserved(s: QueryStatus)
    ensures UrlSearchParams.Encode(s.Name()) == s.Name()
  {
    UrlSearchParams.EncodeUnreserved(s.Name());
  }

  lemma FieldNameUnreserved(n: string)
    requires n == "status" || n == "langs"
    ensures UrlSearchParams.Encode(n) == n
  {
    UrlSearchParams.EncodeUnreserved(n);
  }

  lemma StatusPair(s: QueryStatus)
    ensures UrlSearchParams.EncodePair(("status", s.Name())) == "status=" + s.Name()
  {
    StatusNameUnreserved(s);
    FieldNameUnreserved("status");
  }

  lemma LangsPair(langs: seq<string>)
    ensures UrlSearchParams.EncodePair(("langs", Join(langs, ",")))
         == "langs=" + UrlSearchParams.Encode(Join(langs, ","))
  {
    FieldNameUnreserved("langs");
  }

  /** The query string, case by case: `status` first, `langs` second and
      serialized (so `,` appears as `%2C`), nothing for an absent field. */
  lemma QueryStringShape(options: Option<QueryOptions>)
    ensures !HasStatus(options) && !HasLangs(options) ==> QueryString(options) == ""
    ensures HasStatus(options) && !HasLangs(options) ==>
      QueryString(options) == "status=" + options.value.status.value.Name()
    ensures !HasStatus(options) && HasLangs(options) ==>
      QueryString(options) == "langs=" + UrlSearchParams.Encode(Join(options.value.langs.value, ","))
    ensures HasStatus(options) && HasLangs(options) ==>
      QueryString(options) == "status=" + options.value.status.value.Name()
        + "&langs=" + UrlSearchParams.Encode(Join(options.value.langs.value, ","))
  {
    if HasStatus(options) && HasLangs(options) {
      BothFields(options);
    } else if HasStatus(options) {
      var sp := ("status", options.value.status.value.Name());
      assert QueryPairs(options) == [sp];
      UrlSearchParams.SerializeOne(sp);
      StatusPair(options.value.status.value);
    } else if HasLangs(options) {
      var lp := ("langs", Join(options.value.langs.value, ","));
      assert QueryPairs(options) == [lp];
      UrlSearchParams.SerializeOne(lp);
      LangsPair(options.value.langs.value);
    }
  }

  lemma BothFields(options: Option<QueryOptions>)
    requires HasStatus(options) && HasLangs(options)
    ensures QueryString(options) == "status=" + options.value.status.value.Name()
        + "&langs=" + UrlSearchParams.Encode(Join(options.value.langs.value, ","))
  {
    var status, langs := options.value.status.value, options.value.langs.value;
    assert QueryPairs(options) == [("status", status.Name()), ("langs", Join(langs, ","))];
    BothPairsText(status, langs);
  }

  /** Both pairs serialized: `status=` and the name, `&`, `langs=` and the
      encoded list. */
  lemma BothPairsText(status: QueryStatus, langs: seq<string>)
    ensures UrlSearchParams.Serialize([("status", status.Name()), ("langs", Join(langs, ","))])
         == "status=" + status.Name() + "&langs=" + UrlSearchParams.Encode(Join(langs, ","))
  {
    var name, e := status.Name(), UrlSearchParams.Encode(Join(langs, ","));
    UrlSearchParams.SerializeTwo(("status", name), ("langs", Join(langs, ",")));
    StatusPair(status);
    LangsPair(langs);
    Regroup("status=" + name, "&", "langs=", e, "&langs=");
  }

  /** Regrouping a concatenation. The glued text `bc` is passed in, not
      written as `b + c`, so that the literals are not unfolded character
      by character. */
  lemma Regroup(a: string, b: string, c: string, d: string, bc: string)
    requires b + c == bc
    ensures a + b + (c + d) == a + bc + d
  {
  }

  /** An empty `langs` list is truthy, so it still sends an empty `langs`
      parameter. */
  lemma EmptyLangsStillSent(status: Option<QueryStatus>)
    ensures QueryString(Some(QueryOptions(status, Some([])))) ==
      if status.Some? then "status=" + status.value.Name() + "&langs=" else "langs="
  {
    QueryStringShape(Some(QueryOptions(status, Some([]))));
  }

  /** A query is added exactly when a filter field is given, and it holds
      two parameters (an `&`) exactly when both are. */
  lemma QueryPresence(options: Option<QueryOptions>)
    ensures QueryString(options) != "" <==> HasStatus(options) || HasLangs(options)
    ensures '&' in QueryString(options) <==> HasStatus(options) && HasLangs(options)
  {
    UrlSearchParams.SerializeShape(QueryPairs(options));
  }

  /** A path with the query appended: the path alone without a filter
      field, the path, `?` and a non-empty query otherwise. */
  lemma WithQueryShape(path: string, options: Option<QueryOptions>)
    ensures !HasStatus(options) && !HasLangs(options) ==> WithQuery(path, options) == path
    ensures HasStatus(options) || HasLangs(options) ==>
      QueryString(options) != "" && WithQuery(path, options) == path + "?" + QueryString(options)
  {
    QueryPresence(options);
    var q := QueryString(options);
    if q != "" {
      assert path + ("?" + q) == path + "?" + q;
    }
  }

  /** The slug endpoint is exactly `/faq-groups/slug/{slug}` without a
      filter field, and that path plus `?` and a non-empty query otherwise. */
  lemma SlugEndpointShape(slug: string, options: Option<QueryOptions>)
    ensures !HasStatus(options) && !HasLangs(options) ==> SlugEndpoint(slug, options) == "/faq-groups/slug/" + slug
    ensures HasStatus(options) || HasLangs(options) ==>
      QueryString(options) != "" && SlugEndpoint(slug, options) == "/faq-groups/slug/" + slug + "?" + QueryString(options)
  {
    WithQueryShape("/faq-groups/slug/" + slug, options);
  }

  /** The id endpoint is exactly `/faq-groups/{id}` without a filter field,
      and that path plus `?` and a non-empty query otherwise. */
  lemma IdEndpointShape(id: string, options: Option<QueryOptions>)
    ensures !HasStatus(options) && !HasLangs(options) ==> IdEndpoint(id, options) == "/faq-groups/" + id
    ensures HasStatus(options) || HasLangs(options) ==>
      QueryString(options) != "" && IdEndpoint(id, options) == "/faq-groups/" + id + "?" + QueryString(options)
  {
    WithQueryShape("/faq-groups/" + id, options);
  }

  /** The slug and id are inserted unescaped, so an id lookup for
      `slug/{s}` requests the same endpoint as a slug lookup for `s`. */
  lemma IdCanNameSlugEndpoint(s: string, options: Option<QueryOptions>)
    ensures IdEndpoint("slug/" + s, options) == SlugEndpoint(s, options)
  {
    var path := "/faq-groups/" + ("slug/" + s);
    assert path == "/faq-groups/slug/" + s;
    assert IdEndpoint("slug/" + s, options) == WithQuery(path, options);
  }

  /** A slug lookup filtered on both fields. */
  lemma SlugEndpointBoth(slug: string, s: QueryStatus, langs: seq<string>)
    ensures SlugEndpoint(slug, Some(QueryOptions(Some(s), Some(langs))))
         == "/faq-groups/slug/" + slug + "?" + ("status=" + s.Name() + "&langs=" + UrlSearchParams.Encode(Join(langs, ",")))
  {
    var options := Some(QueryOptions(Some(s), Some(langs)));
    BothFields(options);
    SlugEndpointShape(slug, options);
  }

  /** Two language codes made of letters are sent as `a%2Cb`. */
  lemma TwoLangs(a: string, b: string)
    requires forall i :: 0 <= i < |a| ==> UrlSearchParams.Unreserved(a[i])
    requires forall i :: 0 <= i < |b| ==> UrlSearchParams.Unreserved(b[i])
    ensures UrlSearchParams.Encode(Join([a, b], ",")) == a + "%2C" + b
  {
    assert [a, b][1..] == [b];
    assert Join([a, b], ",") == (a + ",") + b;
    UrlSearchParams.EncodeUnreserved(a);
    UrlSearchParams.EncodeUnreserved(b);
    UrlSearchParams.EncodeConcat(a + ",", b);
    UrlSearchParams.EncodeConcat(a, ",");
    EncodeComma();
  }

  lemma EncodeComma()
    ensures UrlSearchParams.Encode(",") == "%2C"
  {
    assert UrlSearchParams.Utf8(0x2C) == [0x2C];
    assert UrlSearchParams.PercentBytes([0x2C]) == "%2C";
  }

  /** A slug lookup for "abc" filtered to published groups in English and
      French requests `/faq-groups/slug/abc?status=published&langs=en%2Cfr`.
      The literals are parameters fixed by the precondition, which keeps
      the verifier from unfolding them character by character. */
  lemma ExampleSlugEndpoint(slug: string, en: string, fr: string)
    requires slug == "abc" && en == "en" && fr == "fr"
    ensures SlugEndpoint(slug, Some(QueryOptions(Some(Published), Some([en, fr]))))
         == "/faq-groups/slug/abc?status=published&langs=en%2Cfr"
  {
    var endpoint := SlugEndpoint(slug, Some(QueryOptions(Some(Published), Some([en, fr]))));
    assert endpoint == "/faq-groups/slug/" + slug + "?" + ("status=" + Published.Name() + "&langs=" + (en + "%2C" + fr)) by {
      SlugEndpointBoth(slug, Published, [en, fr]);
      TwoLangs(en, fr);
    }
    ExampleText(slug, Published.Name(), en, fr);
  }

  /** The example's final text, from its pieces (passed in for the same
      reason). */
  lemma ExampleText(slug: string, name: string, en: string, fr: string)
    requires slug == "abc" && name == "published" && en == "en" && fr == "fr"
    ensures "/faq-groups/slug/" + slug + "?" + ("status=" + name + "&langs=" + (en + "%2C" + fr))
         == "/faq-groups/slug/abc?status=published&langs=en%2Cfr"
  {
  }

  /** `error instanceof Error ? error.message : "Unknown error"` */
  function ThrownMessage(e: Thrown): (m: string)
    ensures e.Err? ==> m == e.message
    ensures e.NullThrown? ==> m == UnknownErrorMessage
  {
    match e
    case Err(message) => message
    case NullThrown => UnknownErrorMessage
  }

  /** The lookups' normalization of the client's outcome: the remote's
      `status: "error"` is reported with its message; otherwise a reply
      without `data` becomes the no-data error; otherwise the reply is
      returned as it is; a thrown error becomes an error envelope. */
  function Normalize(outcome: Outcome<Envelope>): (r: Envelope)
    ensures r.status != "error" <==>
      outcome.Returned? && outcome.value.status != "error" && outcome.value.data.Some?
    ensures r.status != "error" ==> r == outcome.value
    ensures r.status == "error" ==> r.data == None
    ensures outcome.Returned? && outcome.value.status == "error" ==>
      r == Envelope("error", None, outcome.value.message)
    ensures outcome.Returned? && outcome.value.status != "error" && outcome.value.data == None ==>
      r == Envelope("error", None, Some(NoDataMessage))
    ensures outcome.Threw? ==> r == Envelope("error", None, Some(ThrownMessage(outcome.error)))
  {
    match outcome
    case Returned(response) =>
      if response.status == "error" then Envelope("error", None, response.message)
      else if response.data.None? then Envelope("error", None, Some(NoDataMessage))
      else response
    case Threw(e) => Envelope("error", None, Some(ThrownMessage(e)))
  }

  /** Normalizing an envelope the lookups returned changes nothing. */
  lemma NormalizeIdempotent(outcome: Outcome<Envelope>)
    ensures Normalize(Returned(Normalize(outcome))) == Normalize(outcome)
  {
  }

  /** "Unknown error" is what a lookup returns when the client rejected
      with `null`, which the client does only when its retry budget is
      negative (no attempt runs). */
  lemma UnknownErrorWithoutBudget(fetch: nat -> FetchOutcome<Envelope>, retries: int, timeout: int)
    requires retries < 0
    ensures Normalize(Drive(fetch, retries, timeout).result) == Envelope("error", None, Some(UnknownErrorMessage))
    ensures Drive(fetch, retries, timeout).attempts == 0
  {
    DriveSpec(fetch, retries, timeout);
  }

  /** With a budget, a lookup whose every attempt times out or fails
      reports the thrown error's own message. */
  lemma ThrownErrorsKeepTheirMessage(fetch: nat -> FetchOutcome<Envelope>, retries: int, timeout: int)
    requires retries >= 0
    requires Drive(fetch, retries, timeout).result.Threw?
    ensures Drive(fetch, retries, timeout).result.error.Err?
    ensures Normalize(Drive(fetch, retries, timeout).result).message
         == Some(Drive(fetch, retries, timeout).result.error.message)
  {
    NullOnlyWithoutBudget(fetch, retries, timeout);
  }

  class FaqService {
    const client: Client.HttpClient

    constructor (client: Client.HttpClient)
      ensures this.client == client
    {
      this.client := client;
    }

    /** `getFaqGroupBySlug(slug, options)`: a GET of the slug endpoint with
        no request options, so the client's own timeout and budget apply;
        the result is the normalized outcome. */
    method GetFaqGroupBySlug(slug: string, options: Option<QueryOptions>, fetch: nat -> FetchOutcome<Envelope>)
      returns (sent: FetchRequest, run: Run<Envelope>, r: Envelope)
      ensures sent.url == client.baseURL + SlugEndpoint(slug, options)
      ensures sent.init == RequestInit(Some(GET), Some(Client.DefaultHeaders(client.apiKey)), None)
      ensures run == Drive(fetch, client.retries, client.timeout)
      ensures r == Normalize(run.result)
    {
      var endpoint := SlugEndpoint(slug, options);
      sent, run := client.Get(endpoint, None, fetch);
      r := Normalize(run.result);
    }

    /** `getFaqGroupById(id, options)`, as the slug lookup with the id
        endpoint. */
    method GetFaqGroupById(id: string, options: Option<QueryOptions>, fetch: nat -> FetchOutcome<Envelope>)
      returns (sent: FetchRequest, run: Run<Envelope>, r: Envelope)
      ensures sent.url == client.baseURL + IdEndpoint(id, options)
      ensures sent.init == RequestInit(Some(GET), Some(Client.DefaultHeaders(client.apiKey)), None)
      ensures run == Drive(fetch, client.retries, client.timeout)
      ensures r == Normalize(run.result)
    {
      var endpoint := IdEndpoint(id, options);
      sent, run := client.Get(endpoint, None, fetch);
      r := Normalize(run.result);
    }
  }
}

=== FILE: js.dfy ===
/** The pieces of JavaScript value semantics the SDK's logic depends on:
    optional values, truthiness and the `x || fallback` idiom, the rendering
    of an integer in a template string, and `Array.prototype.join`. */
module Js {

  /** A value that may be `undefined` (an absent optional property). */
  datatype Option<+T> = None | Some(value: T) {
    function GetOr(default: T): T {
      match this
      case Some(v) => v
      case None => default
    }
  }

  /** Either a value or an error, for operations that throw. */
  datatype Result<+R, +E> = Success(value: R) | Failure(error: E)

  /** A JSON-compatible JavaScript value, as handed to `JSON.stringify`.
      Numbers are integers (floating point is not modelled). */
  datatype JsValue =
    | Undefined
    | Null
    | Bool(b: bool)
    | Num(n: int)
    | Str(s: string)
    | Arr(items: seq<JsValue>)
    | Obj(props: seq<(string, JsValue)>)

  /** JavaScript truthiness: `undefined`, `null`, `false`, `0` and `""` are
      falsy; every array and object, even an empty one, is truthy. */
  predicate Truthy(v: JsValue)
    ensures !Truthy(v) <==> v == Undefined || v == Null || v == Bool(false) || v == Num(0) || v == Str("")
  {
    match v
    case Undefined => false
    case Null => false
    case Bool(b) => b
    case Num(n) => n != 0
    case Str(s) => s != ""
    case Arr(_) => true
    case Obj(_) => true
  }

  /** `x || fallback` where `x` is an optional string: `undefined` and `""`
      fall back. */
  function StringOr(x: Option<string>, fallback: string): (r: string)
    ensures x.Some? && x.value != "" ==> r == x.value
    ensures r == fallback || (x == Some(r) && r != "")
  {
    if x.Some? && x.value != "" then x.value else fallback
  }

  /** `x || fallback` where `x` is an optional number: `undefined` and `0`
      fall back, every other number (negative ones too) is kept. */
  function NumberOr(x: Option<int>, fallback: int): (r: int)
    ensures x.Some? && x.value != 0 ==> r == x.value
    ensures r == fallback || (x == Some(r) && r != 0)
  {
    if x.Some? && x.value != 0 then x.value else fallback
  }

  /** `x || fallback` where `x` is an optional boolean. */
  function BoolOr(x: Option<bool>, fallback: bool): (r: bool)
    ensures x == Some(true) ==> r
    ensures r == fallback || x == Some(true)
  {
    if x == Some(true) then true else fallback
  }

  function DigitChar(d: nat): (c: char)
    requires d < 10
    ensures '0' <= c <= '9' && (c as int) - ('0' as int) == d
  {
    "0123456789"[d]
  }

  /** Decimal digits of a natural number, most significant first. */
  function NatToString(n: nat): (s: string)
    ensures |s| >= 1
    ensures forall i :: 0 <= i < |s| ==> '0' <= s[i] <= '9'
    decreases n
  {
    if n < 10 then [DigitChar(n)] else NatToString(n / 10) + [DigitChar(n % 10)]
  }

  /** The value of a string of decimal digits. */
  function DigitsValue(s: string): nat
    requires forall i :: 0 <= i < |s| ==> '0' <= s[i] <= '9'
  {
    if s == [] then 0
    else 10 * DigitsValue(s[..|s| - 1]) + ((s[|s| - 1] as int) - ('0' as int))
  }

  /** Reading the digits back gives the number: the rendering loses nothing. */
  lemma {:induction false} NatToStringRoundTrip(n: nat)
    ensures DigitsValue(NatToString(n)) == n
    decreases n
  {
    if n >= 10 {
      NatToStringRoundTrip(n / 10);
      var s := NatToString(n);
      assert s[..|s| - 1] == NatToString(n / 10);
    }
  }

  /** How an integer appears in a template string (`${n}`). */
  function IntToString(i: int): (s: string)
    ensures |s| >= 1
    ensures i < 0 <==> s[0] == '-'
  {
    if i < 0 then "-" + NatToString(-i) else NatToString(i)
  }

  /** Different naturals render differently. */
  lemma NatToStringInjective(m: nat, n: nat)
    requires NatToString(m) == NatToString(n)
    ensures m == n
  {
    NatToStringRoundTrip(m);
    NatToStringRoundTrip(n);
  }

  /** A rendered integer names it: the sign, then the digits of the
      magnitude. */
  lemma IntToStringInjective(i: int, j: int)
    requires IntToString(i) == IntToString(j)
    ensures i == j
  {
    if i < 0 {
      var d := NatToString(-i);
      assert j < 0;
      var e := NatToString(-j);
      assert "-" + d == "-" + e;
      assert d == ("-" + d)[1..] && e == ("-" + e)[1..];
      NatToStringInjective(-i, -j);
    } else {
      assert j >= 0;
      NatToStringInjective(i, j);
    }
  }

  /** `parts.join(sep)`. */
  function Join(parts: seq<string>, sep: string): (j: string)
    ensures parts == [] ==> j == ""
    ensures |parts| == 1 ==> j == parts[0]
    ensures parts != [] ==> parts[0] <= j
    ensures |parts| >= 2 ==> parts[0] + sep <= j
  {
    if parts == [] then ""
    else if |parts| == 1 then parts[0]
    else parts[0] + sep + Join(parts[1..], sep)
  }

  /** Joining one more part appends the separator and that part: with
      `Join`'s own contract this pins the text from both ends, for lists
      of any length. */
  lemma {:induction false} JoinSnoc(parts: seq<string>, p: string, sep: string)
    requires parts != []
    ensures Join(parts + [p], sep) == Join(parts, sep) + sep + p
    decreases |parts|
  {
    var ps := parts + [p];
    if |parts| == 1 {
      assert ps[1..] == [p];
    } else {
      var head, rest := parts[0] + sep, Join(parts[1..], sep);
      assert ps[0] == parts[0] && ps[1..] == parts[1..] + [p];
      assert Join(ps, sep) == head + Join(parts[1..] + [p], sep);
      JoinSnoc(parts[1..], p, sep);
      assert Join(parts, sep) == head + rest;
      assert head + (rest + sep + p) == head + rest + sep + p;
    }
  }
}

=== FILE: reasked.dfy ===
/** src/reasked.ts: `Reasked`, the all-in-one variant of the SDK. It holds
    the same five settings as `HttpClient`, runs the same attempt loop, and
    performs the two FAQ group lookups itself. Its header shaping differs:
    it merges only the request's own headers over the defaults, so per-call
    headers never reach fetch. */
module ReaskedSdk {
  import opened Js
  import opened Records
  import opened Types
  import opened Retry
  import Client
  import Faq

  /** `{ headers: { Authorization, "Content-Type", ...options.headers },
      ...options }`: the trailing spread copies `method` and `body`, and
      replaces the merged object when the request sets its own headers. */
  function ReaskedInit(apiKey: string, options: RequestInit): (r: RequestInit)
    ensures r.verb == options.verb && r.body == options.body
    ensures options.headers.Some? ==> r.headers == options.headers
    ensures options.headers.None? ==> r.headers == Some(Client.DefaultHeaders(apiKey))
  {
    var merged := Overlay(Client.DefaultHeaders(apiKey), options.headers.GetOr(Empty));
    RequestInit(options.verb, if options.headers.Some? then options.headers else Some(merged), options.body)
  }

  /** Without per-call headers the two variants hand fetch the same
      settings. */
  lemma SameAsClientWithoutPerCallHeaders(apiKey: string, options: RequestInit, requestOptions: Option<RequestOptions>)
    requires Client.PerCallHeaders(requestOptions) == Empty
    ensures ReaskedInit(apiKey, options) == Client.ClientInit(apiKey, options, requestOptions)
  {
  }

  /** A per-call header the defaults do not hold is sent by `HttpClient`
      but not by `Reasked`. */
  lemma PerCallHeadersIgnored(apiKey: string, options: RequestInit, requestOptions: Option<RequestOptions>, k: string)
    requires options.headers.None?
    requires Get(Client.PerCallHeaders(requestOptions), k).Some?
    requires k != "Authorization" && k != "Content-Type"
    ensures Get(ReaskedInit(apiKey, options).headers.value, k) == None
    ensures Get(Client.ClientInit(apiKey, options, requestOptions).headers.value, k)
         == Get(Client.PerCallHeaders(requestOptions), k)
  {
    var d := Client.DefaultHeaders(apiKey);
    assert d[1..][1..] == [];
    assert Get(d, k) == None;
  }

  /** The `TypeError` Node raises for `response.data.faqs.length` when
      `faqs` is absent. */
  const MissingFaqsMessage := "Cannot read properties of undefined (reading 'length')"

  /** A successful reply whose `data` lacks `faqs`. */
  predicate LacksFaqs(outcome: Outcome<Envelope>) {
    outcome.Returned? && outcome.value.status != "error"
    && outcome.value.data.Some? && outcome.value.data.value.faqs.None?
  }

  /** The lookups' normalization in this variant. It runs the same checks
      as `Faq.Normalize`, but before returning a reply it evaluates the
      argument of its debug message, `response.data.faqs.length`, whether
      or not debugging is on. A reply without `faqs` therefore throws inside
      the `try`, and the `TypeError`'s message is reported. */
  function ReaskedNormalize(outcome: Outcome<Envelope>): (r: Envelope)
    ensures !LacksFaqs(outcome) ==> r == Faq.Normalize(outcome)
    ensures LacksFaqs(outcome) ==> r == Envelope("error", None, Some(MissingFaqsMessage))
  {
    match outcome
    case Returned(response) =>
      if response.status == "error" then Envelope("error", None, response.message)
      else if response.data.None? then Envelope("error", None, Some(Faq.NoDataMessage))
      else if response.data.value.faqs.None? then Envelope("error", None, Some(MissingFaqsMessage))
      else response
    case Threw(e) => Envelope("error", None, Some(Faq.ThrownMessage(e)))
  }

  /** The two variants' lookups disagree exactly on a reply without `faqs`:
      `FaqService` returns it unchanged as a success, `Reasked` reports an
      error. */
  lemma VariantsDifferOnMissingFaqs(outcome: Outcome<Envelope>)
    ensures ReaskedNormalize(outcome) != Faq.Normalize(outcome) <==> LacksFaqs(outcome)
    ensures LacksFaqs(outcome) ==> Faq.Normalize(outcome) == outcome.value
  {
  }

  class Reasked {
    const baseURL: string
    const apiKey: string
    const timeout: int
    const retries: int
    const debug: bool

    function Settings(): Client.Config {
      Client.Config(baseURL, apiKey, timeout, retries, debug)
    }

    /** The field assignments of the constructor, once the key is known to
        be non-empty. */
    constructor (config: Client.Config)
      requires config.apiKey != ""
      ensures Settings() == config
    {
      baseURL := config.baseURL;
      apiKey := config.apiKey;
      timeout := config.timeout;
      retries := config.retries;
      debug := config.debug;
    }

    /** `new Reasked(apiKey, options)`: throws "API key is required" for an
        empty key, otherwise an instance with the resolved settings. */
    static method Create(apiKey: string, options: ReaskedOptions) returns (r: Result<Reasked, string>)
      ensures r.Failure? <==> apiKey == ""
      ensures r.Failure? ==> r.error == Client.MissingKeyMessage
      ensures r.Success? ==> r.value.Settings() == Client.ResolveConfig(apiKey, options).value
    {
      var config := Client.ResolveConfig(apiKey, options);
      if config.Failure? {
        return Failure(config.error);
      }
      var sdk := new Reasked(config.value);
      return Success(sdk);
    }

    /** `request(endpoint, options, requestOptions)`: the per-call timeout
        and budget are resolved as in `HttpClient`, the per-call headers are
        not read, and the attempts follow `Drive`. */
    method Request<T>(endpoint: string, options: RequestInit, requestOptions: Option<RequestOptions>, fetch: nat -> FetchOutcome<T>)
      returns (sent: FetchRequest, run: Run<T>)
      ensures sent == FetchRequest(baseURL + endpoint, ReaskedInit(apiKey, options))
      ensures run == Drive(fetch, Client.EffectiveRetries(requestOptions, retries), Client.EffectiveTimeout(requestOptions, timeout))
    {
      var url := baseURL + endpoint;
      var effectiveTimeout := Client.EffectiveTimeout(requestOptions, timeout);
      var effectiveRetries := Client.EffectiveRetries(requestOptions, retries);
      sent := FetchRequest(url, ReaskedInit(apiKey, options));
      run := RunAttempts(fetch, effectiveRetries, effectiveTimeout);
    }

    method Get<T>(endpoint: string, options: Option<RequestOptions>, fetch: nat -> FetchOutcome<T>)
      returns (sent: FetchRequest, run: Run<T>)
      ensures sent.url == baseURL + endpoint
      ensures sent.init == RequestInit(Some(GET), Some(Client.DefaultHeaders(apiKey)), None)
      ensures run == Drive(fetch, Client.EffectiveRetries(options, retries), Client.EffectiveTimeout(options, timeout))
    {
      sent, run := Request(endpoint, RequestInit(Some(GET), None, None), options, fetch);
    }

    method Post<T>(endpoint: string, data: JsValue, options: Option<RequestOptions>, fetch: nat -> FetchOutcome<T>)
      returns (sent: FetchRequest, run: Run<T>)
      ensures sent.url == baseURL + endpoint && sent.init.verb == Some(POST)
      ensures sent.init.headers == Some(Client.DefaultHeaders(apiKey))
      ensures sent.init.body.Some? <==> Truthy(data)
      ensures sent.init.body.Some? ==> sent.init.body.value == data
      ensures run == Drive(fetch, Client.EffectiveRetries(options, retries), Client.EffectiveTimeout(options, timeout))
    {
      sent, run := Request(endpoint, Client.PayloadInit(POST, data), options, fetch);
    }

    method Put<T>(endpoint: string, data: JsValue, options: Option<RequestOptions>, fetch: nat -> FetchOutcome<T>)
      returns (sent: FetchRequest, run: Run<T>)
      ensures sent.url == baseURL + endpoint && sent.init.verb == Some(PUT)
      ensures sent.init.headers == Some(Client.DefaultHeaders(apiKey))
      ensures sent.init.body.Some? <==> Truthy(data)
      ensures sent.init.body.Some? ==> sent.init.body.value == data
      ensures run == Drive(fetch, Client.EffectiveRetries(options, retries), Client.EffectiveTimeout(options, timeout))
    {
      sent, run := Request(endpoint, Client.PayloadInit(PUT, data), options, fetch);
    }

    method Delete<T>(endpoint: string, options: Option<RequestOptions>, fetch: nat -> FetchOutcome<T>)
      returns (sent: FetchRequest, run: Run<T>)
      ensures sent.url == baseURL + endpoint
      ensures sent.init == RequestInit(Some(DELETE), Some(Client.DefaultHeaders(apiKey)), None)
      ensures run == Drive(fetch, Client.EffectiveRetries(options, retries), Client.EffectiveTimeout(options, timeout))
    {
      sent, run := Request(endpoint, RequestInit(Some(DELETE), None, None), options, fetch);
    }

    method Patch<T>(endpoint: string, data: JsValue, options: Option<RequestOptions>, fetch: nat -> FetchOutcome<T>)
      returns (sent: FetchRequest, run: Run<T>)
      ensures sent.url == baseURL + endpoint && sent.init.verb == Some(PATCH)
      ensures sent.init.headers == Some(Client.DefaultHeaders(apiKey))
      ensures sent.init.body.Some? <==> Truthy(data)
      ensures sent.init.body.Some? ==> sent.init.body.value == data
      ensures run == Drive(fetch, Client.EffectiveRetries(options, retries), Client.EffectiveTimeout(options, timeout))
    {
      sent, run := Request(endpoint, Client.PayloadInit(PATCH, data), options, fetch);
    }

    /** `getFaqGroupBySlug(slug, options)`: a GET of the slug endpoint with
        no request options, normalized into one envelope by
        `ReaskedNormalize`. */
    method GetFaqGroupBySlug(slug: string, options: Option<QueryOptions>, fetch: nat -> FetchOutcome<Envelope>)
      returns (sent: FetchRequest, run: Run<Envelope>, r: Envelope)
      ensures sent.url == baseURL + Faq.SlugEndpoint(slug, options)
      ensures sent.init == RequestInit(Some(GET), Some(Client.DefaultHeaders(apiKey)), None)
      ensures run == Drive(fetch, retries, timeout)
      ensures r == ReaskedNormalize(run.result)
    {
      var endpoint := Faq.SlugEndpoint(slug, options);
      sent, run := Get(endpoint, None, fetch);
      r := ReaskedNormalize(run.result);
    }

    /** `getFaqGroupById(id, options)`, as the slug lookup with the id
        endpoint. */
    method GetFaqGroupById(id: string, options: Option<QueryOptions>, fetch: nat -> FetchOutcome<Envelope>)
      returns (sent: FetchRequest, run: Run<Envelope>, r: Envelope)
      ensures sent.url == baseURL + Faq.IdEndpoint(id, options)
      ensures sent.init == RequestInit(Some(GET), Some(Client.DefaultHeaders(apiKey)), None)
      ensures run == Drive(fetch, retries, timeout)
      ensures r == ReaskedNormalize(run.result)
    {
      var endpoint := Faq.IdEndpoint(id, options);
      sent, run := Get(endpoint, None, fetch);
      r := ReaskedNormalize(run.result);
    }
  }
}

=== FILE: records.dfy ===
/** A JavaScript object used as a string-to-string record, such as a header
    set: its own keys in the order they were added, each with one value.
    Property assignment and object spread (`{...a, ...b}`) keep that order:
    assigning an existing key keeps its position, a new key goes to the end.
    JavaScript enumerates the keys that are array indices ("0", "42") first,
    in ascending order, and every other key in this order; `NamedKeys`
    selects the keys whose position the order decides. */
module Records {
  import opened Js

  function Keys(r: seq<(string, string)>): (ks: seq<string>)
    ensures |ks| == |r|
  {
    if r == [] then [] else [r[0].0] + Keys(r[1..])
  }

  predicate Distinct(ks: seq<string>) {
    forall i, j :: 0 <= i < j < |ks| ==> ks[i] != ks[j]
  }

  /** An object's keys are distinct. */
  type Record = r: seq<(string, string)> | Distinct(Keys(r))

  const Empty: Record := []

  /** `r[k]`, `undefined` when `k` is not an own key. */
  function Get(r: seq<(string, string)>, k: string): (v: Option<string>)
    ensures v.Some? <==> k in Keys(r)
  {
    if r == [] then None
    else if r[0].0 == k then Some(r[0].1)
    else Get(r[1..], k)
  }

  lemma {:induction false} TailKeys(r: seq<(string, string)>)
    requires r != []
    ensures Keys(r[1..]) == Keys(r)[1..]
  {
  }

  lemma {:induction false} TailIsRecord(r: Record)
    requires r != []
    ensures Distinct(Keys(r[1..]))
  {
    TailKeys(r);
    var ks := Keys(r);
    forall i, j | 0 <= i < j < |ks| - 1 ensures ks[1..][i] != ks[1..][j] {
      assert ks[1..][i] == ks[i + 1] && ks[1..][j] == ks[j + 1];
    }
  }

  lemma DistinctAppend(ks: seq<string>, k: string)
    requires Distinct(ks) && k !in ks
    ensures Distinct(ks + [k])
  {
    var ks' := ks + [k];
    forall i, j | 0 <= i < j < |ks'| ensures ks'[i] != ks'[j] {
      if j == |ks| {
        assert ks'[i] == ks[i];
      } else {
        assert ks'[i] == ks[i] && ks'[j] == ks[j];
      }
    }
  }

  /** `r[k] = v` on a copy: an existing key is updated where it stands,
      a new key is appended. */
  function Assign(r: seq<(string, string)>, k: string, v: string): (r': seq<(string, string)>)
    ensures Keys(r') == if k in Keys(r) then Keys(r) else Keys(r) + [k]
    ensures forall k' :: Get(r', k') == if k' == k then Some(v) else Get(r, k')
  {
    if r == [] then [(k, v)]
    else if r[0].0 == k then [(k, v)] + r[1..]
    else
      var rest := Assign(r[1..], k, v);
      assert Keys(r) == [r[0].0] + Keys(r[1..]);
      [r[0]] + rest
  }

  lemma AssignIsRecord(r: Record, k: string, v: string)
    ensures Distinct(Keys(Assign(r, k, v)))
  {
    if k !in Keys(r) {
      DistinctAppend(Keys(r), k);
    }
  }

  /** `{...a, ...b}`: the keys of `b`, in `b`'s order, assigned over `a`. */
  function Overlay(a: Record, b: Record): (r: Record)
    ensures forall k :: Get(r, k) == if Get(b, k).Some? then Get(b, k) else Get(a, k)
    decreases |b|
  {
    if b == [] then a
    else
      AssignIsRecord(a, b[0].0, b[0].1);
      TailIsRecord(b);
      var a': Record := Assign(a, b[0].0, b[0].1);
      var b': Record := b[1..];
      assert forall k :: Get(b, k) == if k == b[0].0 then Some(b[0].1) else Get(b', k);
      HeadNotInTail(b);
      assert Get(b', b[0].0) == None;
      Overlay(a', b')
  }

  /** The keys of `ks` that are not in `seen`, in order. */
  function Fresh(ks: seq<string>, seen: seq<string>): seq<string> {
    if ks == [] then []
    else if ks[0] in seen then Fresh(ks[1..], seen)
    else [ks[0]] + Fresh(ks[1..], seen)
  }

  lemma {:induction false} FreshIgnoresAbsent(ks: seq<string>, seen: seq<string>, k: string)
    requires k !in ks
    ensures Fresh(ks, seen + [k]) == Fresh(ks, seen)
  {
    if ks != [] {
      FreshIgnoresAbsent(ks[1..], seen, k);
    }
  }

  lemma FreshCons(k: string, ks: seq<string>, seen: seq<string>)
    ensures Fresh([k] + ks, seen) == if k in seen then Fresh(ks, seen) else [k] + Fresh(ks, seen)
  {
    assert ([k] + ks)[1..] == ks;
  }

  /** The first key of a record does not occur again in its tail. */
  lemma HeadNotInTail(b: Record)
    requires b != []
    ensures Keys(b) == [b[0].0] + Keys(b[1..])
    ensures b[0].0 !in Keys(b[1..])
  {
    TailKeys(b);
    var ks := Keys(b);
    forall j | 0 <= j < |Keys(b[1..])|
      ensures Keys(b[1..])[j] != b[0].0
    {
      assert Keys(b[1..])[j] == ks[j + 1];
    }
  }

  /** One step of the spread: the first key of `b` is assigned, the rest
      of `b` follows, and that key does not occur again in `b`. */
  lemma OverlayStep(a: Record, b: Record)
    requires b != []
    ensures Distinct(Keys(Assign(a, b[0].0, b[0].1))) && Distinct(Keys(b[1..]))
    ensures Overlay(a, b) == Overlay(Assign(a, b[0].0, b[0].1), b[1..])
    ensures Keys(b) == [b[0].0] + Keys(b[1..]) && b[0].0 !in Keys(b[1..])
  {
    AssignIsRecord(a, b[0].0, b[0].1);
    TailIsRecord(b);
    HeadNotInTail(b);
  }

  /** The key bookkeeping of one spread step, on plain key lists. */
  lemma FreshStep(ka: seq<string>, k: string, kb: seq<string>)
    requires k !in kb
    ensures var ka' := if k in ka then ka else ka + [k];
      ka' + Fresh(kb, ka') == ka + Fresh([k] + kb, ka)
  {
    FreshCons(k, kb, ka);
    if k !in ka {
      FreshIgnoresAbsent(kb, ka, k);
      assert (ka + [k]) + Fresh(kb, ka) == ka + ([k] + Fresh(kb, ka));
    }
  }

  /** Object spread keeps `a`'s keys where they were and appends the keys
      only `b` has, in `b`'s order. */
  lemma {:induction false} OverlayKeyOrder(a: Record, b: Record)
    ensures Keys(Overlay(a, b)) == Keys(a) + Fresh(Keys(b), Keys(a))
    decreases |b|
  {
    if b != [] {
      OverlayStep(a, b);
      var a': Record := Assign(a, b[0].0, b[0].1);
      var b': Record := b[1..];
      OverlayKeyOrder(a', b');
      FreshStep(Keys(a), b[0].0, Keys(b'));
    }
  }

  /** A canonical array index: the decimal form of an integer below
      2^32 - 1, without leading zeros. */
  predicate ArrayIndex(k: string) {
    && |k| >= 1
    && (forall i :: 0 <= i < |k| ==> '0' <= k[i] <= '9')
    && (k[0] != '0' || |k| == 1)
    && DigitsValue(k) < 0xFFFF_FFFF
  }

  /** The keys that are not array indices, in order: the part of an
      object's key list that JavaScript enumerates in insertion order. */
  function NamedKeys(ks: seq<string>): (nk: seq<string>)
    ensures |nk| <= |ks|
    ensures forall i :: 0 <= i < |nk| ==> nk[i] in ks && !ArrayIndex(nk[i])
  {
    if ks == [] then []
    else if ArrayIndex(ks[0]) then NamedKeys(ks[1..])
    else [ks[0]] + NamedKeys(ks[1..])
  }

  lemma {:induction false} NamedKeysConcat(a: seq<string>, b: seq<string>)
    ensures NamedKeys(a + b) == NamedKeys(a) + NamedKeys(b)
  {
    if a != [] {
      var ab := a + b;
      assert ab[0] == a[0] && ab[1..] == a[1..] + b;
      NamedKeysConcat(a[1..], b);
      if ArrayIndex(a[0]) {
        assert NamedKeys(ab) == NamedKeys(ab[1..]);
      } else {
        assert NamedKeys(ab) == [a[0]] + NamedKeys(ab[1..]);
        assert NamedKeys(a) == [a[0]] + NamedKeys(a[1..]);
      }
    } else {
      assert a + b == b;
    }
  }

  /** Spread never moves the keys already present: `a`'s keys are a
      prefix of the result's. */
  lemma OverlayKeepsPrefix(a: Record, b: Record)
    ensures Keys(a) <= Keys(Overlay(a, b))
  {
    OverlayKeyOrder(a, b);
  }

  lemma NamedKeysPrefix(p: seq<string>, ks: seq<string>)
    requires p <= ks
    ensures NamedKeys(p) <= NamedKeys(ks)
  {
    assert ks == p + ks[|p|..];
    NamedKeysConcat(p, ks[|p|..]);
  }

  lemma {:induction false} AllNamed(d: seq<string>)
    requires forall i :: 0 <= i < |d| ==> !ArrayIndex(d[i])
    ensures NamedKeys(d) == d
  {
    if d != [] {
      AllNamed(d[1..]);
    }
  }
}

=== FILE: retry.dfy ===
/** The retry/timeout driver shared by `HttpClient.request` and
    `Reasked.request`. The network is an oracle: `fetch(k)` is what the k-th
    attempt (counting from 0) ends with, after the timer has been armed and the
    response read. The sleeps between attempts are recorded as a list of
    delays in milliseconds. */
module Retry {
  import opened Js

  /** How one attempt ends. `Ok` carries the parsed JSON body; `HttpFail` a
      response outside 200-299 with the `message` field of its parsed error
      body, if any; `Abort` the `AbortError` raised when the timer fires;
      `OtherError` any other `Error` thrown (network failure, unparsable
      success body). */
  datatype FetchOutcome<T> =
    | Ok(body: T)
    | HttpFail(status: int, statusText: string, errorMessage: Option<string>)
    | Abort
    | OtherError(message: string)

  /** An outcome the loop retries. */
  predicate Retryable<T>(o: FetchOutcome<T>) {
    o.HttpFail? || o.OtherError?
  }

  /** A thrown value: an `Error` with its message, or `null` (what
      `throw lastError` throws when no attempt ran). */
  datatype Thrown = Err(message: string) | NullThrown

  /** How a call ends: it resolves with a value or rejects with a thrown value. */
  datatype Outcome<T> = Returned(value: T) | Threw(error: Thrown)

  /** A whole call: its outcome, how many attempts were made, and the
      backoff delays slept, in order. */
  datatype Run<T> = Run(result: Outcome<T>, attempts: nat, delays: seq<int>)

  function Pow2(n: nat): (p: nat)
    ensures p >= 1
  {
    if n == 0 then 1 else 2 * Pow2(n - 1)
  }

  /** `Math.pow(2, attempt) * 1000`. */
  function Backoff(attempt: nat): (d: int)
    ensures d >= 1000
  {
    Pow2(attempt) * 1000
  }

  /** Each wait is twice the one before it. */
  lemma BackoffDoubles(attempt: nat)
    ensures Backoff(attempt + 1) == 2 * Backoff(attempt)
  {
  }

  /** The delays slept before attempts 1..n: 1000, 2000, 4000, ... */
  function Backoffs(n: nat): (ds: seq<int>)
    ensures |ds| == n && forall i :: 0 <= i < n ==> ds[i] == Backoff(i)
  {
    seq(n, i requires 0 <= i < n => Backoff(i))
  }

  /** The error a failed attempt raises. */
  function FailureError<T>(o: FetchOutcome<T>): (e: Thrown)
    requires Retryable(o)
    ensures e.Err?
    ensures o.OtherError? ==> e.message == o.message
    ensures o.HttpFail? && o.errorMessage.Some? && o.errorMessage.value != "" ==> e.message == o.errorMessage.value
    ensures o.HttpFail? && (o.errorMessage == None || o.errorMessage == Some("")) ==>
              e.message == "API request failed: " + IntToString(o.status) + " " + o.statusText
  {
    match o
    case HttpFail(status, statusText, errorMessage) =>
      Err(StringOr(errorMessage, "API request failed: " + IntToString(status) + " " + statusText))
    case OtherError(message) => Err(message)
  }

  /** The error raised when an attempt's timer fires. */
  function TimeoutError(timeout: int): (e: Thrown)
    ensures e.Err? && "Request timeout after " <= e.message
    ensures |e.message| >= 2 && e.message[|e.message| - 2..] == "ms"
  {
    Err("Request timeout after " + IntToString(timeout) + "ms")
  }

  /** The timeout message names the timeout: two different timeouts give
      two different errors. A negative timeout is kept by `||` and
      rendered with its sign, so it is included. */
  lemma TimeoutErrorNamesTimeout(t1: int, t2: int)
    requires TimeoutError(t1) == TimeoutError(t2)
    ensures t1 == t2
  {
    Unframe("Request timeout after ", IntToString(t1), IntToString(t2), "ms");
    IntToStringInjective(t1, t2);
  }

  /** Text between the same prefix and suffix is recovered from the whole. */
  lemma Unframe(prefix: string, s1: string, s2: string, suffix: string)
    requires prefix + s1 + suffix == prefix + s2 + suffix
    ensures s1 == s2
  {
    var m1, m2 := prefix + s1 + suffix, prefix + s2 + suffix;
    assert |s1| == |s2|;
    assert s1 == m1[|prefix|..|prefix| + |s1|];
    assert s2 == m2[|prefix|..|prefix| + |s2|];
  }

  /** The loop from iteration `attempt` on, with `lastError` caught so far:
      the specification the imperative loop is proved against. */
  function DriveFrom<T>(fetch: nat -> FetchOutcome<T>, attempt: nat, retries: int, timeout: int, lastError: Thrown): Run<T>
    decreases retries - attempt
  {
    if attempt > retries then Run(Threw(lastError), attempt, [])
    else
      match fetch(attempt)
      case Ok(body) => Run(Returned(body), attempt + 1, [])
      case Abort => Run(Threw(TimeoutError(timeout)), attempt + 1, [])
      case _ =>
        var e := FailureError(fetch(attempt));
        if attempt == retries then Run(Threw(e), attempt + 1, [])
        else
          var rest := DriveFrom(fetch, attempt + 1, retries, timeout, e);
          Run(rest.result, rest.attempts, [Backoff(attempt)] + rest.delays)
  }

  /** A whole call with effective `retries` and `timeout`. */
  function Drive<T>(fetch: nat -> FetchOutcome<T>, retries: int, timeout: int): (r: Run<T>)
    ensures retries < 0 ==> r == Run(Threw(NullThrown), 0, [])
    ensures retries >= 0 ==> 1 <= r.attempts <= retries + 1 && |r.delays| == r.attempts - 1
  {
    if retries >= 0 then
      DriveFromShape(fetch, 0, retries, timeout, NullThrown);
      DriveFrom(fetch, 0, retries, timeout, NullThrown)
    else DriveFrom(fetch, 0, retries, timeout, NullThrown)
  }

  /** How the attempt that ends a call decides its outcome. */
  ghost predicate Settles<T>(o: FetchOutcome<T>, isLast: bool, timeout: int, result: Outcome<T>) {
    match o
    case Ok(body) => result == Returned(body)
    case Abort => result == Threw(TimeoutError(timeout))
    case _ => isLast && result == Threw(FailureError(o))
  }

  /** The shape of every run from an iteration within the budget. */
  lemma DriveFromShape<T>(fetch: nat -> FetchOutcome<T>, attempt: nat, retries: int, timeout: int, lastError: Thrown)
    requires attempt <= retries
    ensures var run := DriveFrom(fetch, attempt, retries, timeout, lastError);
      && attempt < run.attempts <= retries + 1
      && |run.delays| == run.attempts - 1 - attempt
      && (forall i :: 0 <= i < |run.delays| ==> run.delays[i] == Backoff(attempt + i))
      && (forall j :: attempt <= j < run.attempts - 1 ==> Retryable(fetch(j)))
      && Settles(fetch(run.attempts - 1), run.attempts == retries + 1, timeout, run.result)
  {
    DriveFromDelays(fetch, attempt, retries, timeout, lastError);
    DriveFromEnd(fetch, attempt, retries, timeout, lastError);
  }

  /** The attempt count and the backoff delays of a run. */
  lemma {:induction false} DriveFromDelays<T>(fetch: nat -> FetchOutcome<T>, attempt: nat, retries: int, timeout: int, lastError: Thrown)
    requires attempt <= retries
    ensures var run := DriveFrom(fetch, attempt, retries, timeout, lastError);
      && attempt < run.attempts <= retries + 1
      && |run.delays| == run.attempts - 1 - attempt
      && (forall i :: 0 <= i < |run.delays| ==> run.delays[i] == Backoff(attempt + i))
    decreases retries - attempt
  {
    if Retryable(fetch(attempt)) && attempt < retries {
      var e := FailureError(fetch(attempt));
      var rest := DriveFrom(fetch, attempt + 1, retries, timeout, e);
      DriveFromDelays(fetch, attempt + 1, retries, timeout, e);
      var run := DriveFrom(fetch, attempt, retries, timeout, lastError);
      assert run == Run(rest.result, rest.attempts, [Backoff(attempt)] + rest.delays);
      forall i | 0 <= i < |run.delays|
        ensures run.delays[i] == Backoff(attempt + i)
      {
        if i > 0 {
          assert run.delays[i] == rest.delays[i - 1];
        }
      }
    }
  }

  /** Which attempts failed before the last, and how the last one ends
      the run. */
  lemma DriveFromEnd<T>(fetch: nat -> FetchOutcome<T>, attempt: nat, retries: int, timeout: int, lastError: Thrown)
    requires attempt <= retries
    ensures var run := DriveFrom(fetch, attempt, retries, timeout, lastError);
      && attempt < run.attempts <= retries + 1
      && (forall j :: attempt <= j < run.attempts - 1 ==> Retryable(fetch(j)))
      && Settles(fetch(run.attempts - 1), run.attempts == retries + 1, timeout, run.result)
  {
    DriveFromRetried(fetch, attempt, retries, timeout, lastError);
    DriveFromSettles(fetch, attempt, retries, timeout, lastError);
  }

  /** A retryable failure before the final attempt hands the rest of the
      run to the next attempt. */
  lemma DriveFromRetry<T>(fetch: nat -> FetchOutcome<T>, attempt: nat, retries: int, timeout: int, lastError: Thrown)
    requires attempt < retries && Retryable(fetch(attempt))
    ensures var run := DriveFrom(fetch, attempt, retries, timeout, lastError);
      var rest := DriveFrom(fetch, attempt + 1, retries, timeout, FailureError(fetch(attempt)));
      run.result == rest.result && run.attempts == rest.attempts
  {
  }

  /** A run of `attempts` attempts whose last attempt settles `result`. */
  ghost predicate LastSettles<T>(fetch: nat -> FetchOutcome<T>, retries: int, timeout: int, attempts: nat, result: Outcome<T>) {
    attempts >= 1 && Settles(fetch(attempts - 1), attempts == retries + 1, timeout, result)
  }

  /** Any other attempt within the budget is the last one, and settles
      the outcome. */
  lemma DriveFromStop<T>(fetch: nat -> FetchOutcome<T>, attempt: nat, retries: int, timeout: int, lastError: Thrown)
    requires attempt <= retries && !(attempt < retries && Retryable(fetch(attempt)))
    ensures var run := DriveFrom(fetch, attempt, retries, timeout, lastError);
      run.attempts == attempt + 1 && LastSettles(fetch, retries, timeout, run.attempts, run.result)
  {
    var run := DriveFrom(fetch, attempt, retries, timeout, lastError);
    match fetch(attempt)
    case Ok(body) =>
      assert run.result == Returned(body);
    case Abort =>
      assert run.result == Threw(TimeoutError(timeout));
    case _ =>
      assert run.result == Threw(FailureError(fetch(attempt)));
  }

  /** Every attempt before the last failed in a retryable way. */
  lemma {:induction false} DriveFromRetried<T>(fetch: nat -> FetchOutcome<T>, attempt: nat, retries: int, timeout: int, lastError: Thrown)
    requires attempt <= retries
    ensures var run := DriveFrom(fetch, attempt, retries, timeout, lastError);
      && attempt < run.attempts <= retries + 1
      && (forall j :: attempt <= j < run.attempts - 1 ==> Retryable(fetch(j)))
    decreases retries - attempt
  {
    if attempt < retries && Retryable(fetch(attempt)) {
      DriveFromRetry(fetch, attempt, retries, timeout, lastError);
      DriveFromRetried(fetch, attempt + 1, retries, timeout, FailureError(fetch(attempt)));
    } else {
      DriveFromStop(fetch, attempt, retries, timeout, lastError);
    }
  }

  /** The last attempt decides the outcome. */
  lemma {:induction false} DriveFromSettles<T>(fetch: nat -> FetchOutcome<T>, attempt: nat, retries: int, timeout: int, lastError: Thrown)
    requires attempt <= retries
    ensures var run := DriveFrom(fetch, attempt, retries, timeout, lastError);
      attempt < run.attempts && LastSettles(fetch, retries, timeout, run.attempts, run.result)
    decreases retries - attempt
  {
    if attempt < retries && Retryable(fetch(attempt)) {
      DriveFromRetry(fetch, attempt, retries, timeout, lastError);
      DriveFromSettles(fetch, attempt + 1, retries, timeout, FailureError(fetch(attempt)));
    } else {
      DriveFromStop(fetch, attempt, retries, timeout, lastError);
    }
  }

  /** What a call does, for every oracle: with a negative budget no attempt
      runs and `null` is thrown; otherwise between 1 and retries+1 attempts
      run, every attempt but the last failed in a retryable way and was
      followed by its backoff delay, and the last attempt decides the
      outcome (its body, the timeout error, or, on the final permitted
      attempt only, its own error). */
  lemma DriveSpec<T>(fetch: nat -> FetchOutcome<T>, retries: int, timeout: int)
    ensures var run := Drive(fetch, retries, timeout);
      && (retries < 0 ==> run == Run(Threw(NullThrown), 0, []))
      && (retries >= 0 ==>
            && 1 <= run.attempts <= retries + 1
            && run.delays == Backoffs(run.attempts - 1)
            && (forall j :: 0 <= j < run.attempts - 1 ==> Retryable(fetch(j)))
            && Settles(fetch(run.attempts - 1), run.attempts == retries + 1, timeout, run.result))
  {
    if retries >= 0 {
      DriveFromShape(fetch, 0, retries, timeout, NullThrown);
    }
  }

  /** The first attempt that does not fail retryably is the one the call
      ends on, when it is within the budget. */
  lemma EndsAtFirstDecisive<T>(fetch: nat -> FetchOutcome<T>, retries: int, timeout: int, k: nat)
    requires k <= retries
    requires !Retryable(fetch(k))
    requires forall j :: 0 <= j < k ==> Retryable(fetch(j))
    ensures Drive(fetch, retries, timeout).attempts == k + 1
  {
    DriveSpec(fetch, retries, timeout);
  }

  /** The first successful attempt's body is returned, no attempt follows
      it, and one backoff delay was slept per failure before it. */
  lemma FirstOkReturned<T>(fetch: nat -> FetchOutcome<T>, retries: int, timeout: int, k: nat)
    requires k <= retries
    requires fetch(k).Ok?
    requires forall j :: 0 <= j < k ==> Retryable(fetch(j))
    ensures Drive(fetch, retries, timeout) == Run(Returned(fetch(k).body), k + 1, Backoffs(k))
  {
    DriveSpec(fetch, retries, timeout);
    EndsAtFirstDecisive(fetch, retries, timeout, k);
  }

  /** A timeout ends the call at once with the timeout error, whatever
      budget remains: no further attempt and no further delay. */
  lemma AbortStopsAtOnce<T>(fetch: nat -> FetchOutcome<T>, retries: int, timeout: int, k: nat)
    requires k <= retries
    requires fetch(k).Abort?
    requires forall j :: 0 <= j < k ==> Retryable(fetch(j))
    ensures Drive(fetch, retries, timeout) == Run(Threw(TimeoutError(timeout)), k + 1, Backoffs(k))
  {
    DriveSpec(fetch, retries, timeout);
    EndsAtFirstDecisive(fetch, retries, timeout, k);
  }

  /** When every permitted attempt fails retryably, exactly retries+1
      attempts run, the delays are 1000, 2000, ..., 2^(retries-1)*1000, and
      the last attempt's error is thrown. */
  lemma AllFailuresExhaustBudget<T>(fetch: nat -> FetchOutcome<T>, retries: int, timeout: int)
    requires retries >= 0
    requires forall j :: 0 <= j <= retries ==> Retryable(fetch(j))
    ensures Drive(fetch, retries, timeout) == Run(Threw(FailureError(fetch(retries))), retries + 1, Backoffs(retries))
  {
    DriveSpec(fetch, retries, timeout);
  }

  /** With a budget, a call never rejects with `null`: only the loop's
      fall-through after zero iterations throws the initial `lastError`. */
  lemma NullOnlyWithoutBudget<T>(fetch: nat -> FetchOutcome<T>, retries: int, timeout: int)
    ensures Drive(fetch, retries, timeout).result == Threw(NullThrown) <==> retries < 0
  {
    DriveSpec(fetch, retries, timeout);
  }

  /** A call looks only at the attempts it makes: two oracles that agree on
      the first retries+1 attempts give the same run. */
  lemma {:induction false} DriveFromLooksAhead<T>(f: nat -> FetchOutcome<T>, g: nat -> FetchOutcome<T>, attempt: nat, retries: int, timeout: int, lastError: Thrown)
    requires forall j :: attempt <= j <= retries ==> f(j) == g(j)
    ensures DriveFrom(f, attempt, retries, timeout, lastError) == DriveFrom(g, attempt, retries, timeout, lastError)
    decreases retries - attempt
  {
    if attempt <= retries && Retryable(f(attempt)) && attempt < retries {
      DriveFromLooksAhead(f, g, attempt + 1, retries, timeout, FailureError(f(attempt)));
    }
  }

  lemma DriveIgnoresUnusedAttempts<T>(f: nat -> FetchOutcome<T>, g: nat -> FetchOutcome<T>, retries: int, timeout: int)
    requires forall j :: 0 <= j <= retries ==> f(j) == g(j)
    ensures Drive(f, retries, timeout) == Drive(g, retries, timeout)
  {
    DriveFromLooksAhead(f, g, 0, retries, timeout, NullThrown);
  }

  /** `run` with `delays` slept before it. */
  function After<T>(delays: seq<int>, run: Run<T>): Run<T> {
    Run(run.result, run.attempts, delays + run.delays)
  }

  /** A retryable failure before the final permitted attempt is followed
      by its backoff delay and the next iteration. */
  lemma RetryStep<T>(fetch: nat -> FetchOutcome<T>, delays: seq<int>, attempt: nat, retries: int, timeout: int, lastError: Thrown)
    requires attempt < retries && Retryable(fetch(attempt))
    ensures After(delays, DriveFrom(fetch, attempt, retries, timeout, lastError))
         == After(delays + [Backoff(attempt)], DriveFrom(fetch, attempt + 1, retries, timeout, FailureError(fetch(attempt))))
  {
    var rest := DriveFrom(fetch, attempt + 1, retries, timeout, FailureError(fetch(attempt)));
    assert delays + ([Backoff(attempt)] + rest.delays) == (delays + [Backoff(attempt)]) + rest.delays;
  }

  /** The attempt loop: `for (attempt = 0; attempt <= retries; attempt++)`
      around one `fetch`, catching its error into `lastError`; a timeout is
      rethrown as the timeout error at once, a failure on the final
      permitted attempt is rethrown, any other failure is followed by its
      backoff sleep; after the loop `lastError` is thrown. */
  method RunAttempts<T>(fetch: nat -> FetchOutcome<T>, retries: int, timeout: int) returns (run: Run<T>)
    ensures run == Drive(fetch, retries, timeout)
  {
    var lastError := NullThrown;
    var delays: seq<int> := [];
    var attempt: nat := 0;
    while attempt <= retries
      invariant After(delays, DriveFrom(fetch, attempt, retries, timeout, lastError)) == Drive(fetch, retries, timeout)
      decreases retries - attempt
    {
      var outcome := fetch(attempt);
      if outcome.Ok? {
        return Run(Returned(outcome.body), attempt + 1, delays);
      }
      if outcome.Abort? {
        return Run(Threw(TimeoutError(timeout)), attempt + 1, delays);
      }
      ghost var caught := lastError;
      lastError := FailureError(outcome);
      if attempt == retries {
        return Run(Threw(lastError), attempt + 1, delays);
      }
      RetryStep(fetch, delays, attempt, retries, timeout, caught);
      delays := delays + [Backoff(attempt)];
      attempt := attempt + 1;
    }
    run := Run(Threw(lastError), attempt, delays);
  }
}

=== FILE: types.dfy ===
/** The shapes the SDK exchanges with its callers and with the remote API:
    constructor and per-call options, the response envelope, the FAQ group
    payload, the lookup filter, and the request handed to `fetch`. */
module Types {
  import opened Js
  import opened Records

  /** Optional constructor settings (`ReaskedOptions`). */
  datatype ReaskedOptions = ReaskedOptions(
    host: Option<string>,
    timeout: Option<int>,
    retries: Option<int>,
    debug: Option<bool>)

  /** `{}`: no setting given. */
  const NoOptions := ReaskedOptions(None, None, None, None)

  /** Optional per-call settings (`RequestOptions` / `ReaskedRequestOptions`). */
  datatype RequestOptions = RequestOptions(
    headers: Option<Record>,
    timeout: Option<int>,
    retries: Option<int>)

  datatype Method = GET | POST | PUT | DELETE | PATCH

  /** The part of fetch's `RequestInit` the SDK reads and writes (`verb` is
      its `method` property). A `Some` field is an own property holding a
      defined value; `body` holds the value sent as `JSON.stringify(body)`. */
  datatype RequestInit = RequestInit(
    verb: Option<Method>,
    headers: Option<Record>,
    body: Option<JsValue>)

  /** What one attempt hands to `fetch`: the URL and the merged settings. */
  datatype FetchRequest = FetchRequest(url: string, init: RequestInit)

  /** The `status` filter of a lookup. */
  datatype QueryStatus = All | Draft | Published {
    function Name(): string {
      match this
      case All => "all"
      case Draft => "draft"
      case Published => "published"
    }
  }

  /** `FaqGroupQueryOptions`. */
  datatype QueryOptions = QueryOptions(status: Option<QueryStatus>, langs: Option<seq<string>>)

  datatype FaqTranslation = FaqTranslation(
    question: string, answer: string, lang: string,
    id: string, createdAt: string, updatedAt: string)

  /** `status` is "draft" or "published" as the remote sends it. */
  datatype Faq = Faq(
    id: string, status: string, position: int,
    createdAt: string, updatedAt: string,
    translations: seq<FaqTranslation>)

  datatype FaqGroupTranslation = FaqGroupTranslation(
    name: string, description: string, lang: string,
    id: string, createdAt: string, updatedAt: string)

  /** `FaqGroupData`. The remote's JSON is not checked against the
      declared type, so `faqs` is `None` when a reply's `data` lacks it. */
  datatype FaqGroup = FaqGroup(
    id: string, status: string,
    createdAt: string, updatedAt: string,
    translations: seq<FaqGroupTranslation>,
    faqs: Option<seq<Faq>>)

  /** `ReaskedResponse<FaqGroupData>`: the remote's reply and the lookups'
      return value. `status` is "success" or "error" on the wire; it is kept
      as text because the code compares it with the literal "error". */
  datatype Envelope = Envelope(status: string, data: Option<FaqGroup>, message: Option<string>)
}

=== FILE: urlsearch.dfy ===
/** What `URLSearchParams.toString()` produces from its list of name/value
    pairs: the `application/x-www-form-urlencoded` serializer of the WHATWG
    URL Standard (section 5.2). Each name and value is UTF-8 encoded; the
    bytes of `*-._` and ASCII letters and digits are kept, a space becomes
    `+`, every other byte becomes `%XX` with upper-case hex digits; pairs are
    written `name=value` and joined with `&`. */
module UrlSearchParams {

  /** Characters the serializer keeps as they are. */
  predicate Unreserved(c: char) {
    ('a' <= c <= 'z') || ('A' <= c <= 'Z') || ('0' <= c <= '9')
    || c == '*' || c == '-' || c == '.' || c == '_'
  }

  /** Characters that can appear in serialized output. */
  predicate Serialized(c: char) {
    Unreserved(c) || c == '+' || c == '%'
  }

  /** UTF-8 bytes of a Unicode scalar value. */
  function Utf8(cp: int): (bs: seq<int>)
    requires 0 <= cp < 0x110000
    ensures 1 <= |bs| <= 4
    ensures forall i :: 0 <= i < |bs| ==> 0 <= bs[i] < 256
  {
    if cp < 0x80 then [cp]
    else if cp < 0x800 then [0xC0 + cp / 0x40, 0x80 + cp % 0x40]
    else if cp < 0x10000 then [0xE0 + cp / 0x1000, 0x80 + (cp / 0x40) % 0x40, 0x80 + cp % 0x40]
    else [0xF0 + cp / 0x40000, 0x80 + (cp / 0x1000) % 0x40, 0x80 + (cp / 0x40) % 0x40, 0x80 + cp % 0x40]
  }

  function HexDigit(d: int): (c: char)
    requires 0 <= d < 16
    ensures Unreserved(c)
  {
    "0123456789ABCDEF"[d]
  }

  function PercentBytes(bs: seq<int>): (s: string)
    requires forall i :: 0 <= i < |bs| ==> 0 <= bs[i] < 256
    ensures |s| == 3 * |bs|
    ensures forall i :: 0 <= i < |s| ==> Serialized(s[i])
  {
    if bs == [] then []
    else ['%', HexDigit(bs[0] / 16), HexDigit(bs[0] % 16)] + PercentBytes(bs[1..])
  }

  function EncodeChar(c: char): (s: string)
    ensures |s| >= 1
    ensures forall i :: 0 <= i < |s| ==> Serialized(s[i])
  {
    if Unreserved(c) then [c]
    else if c == ' ' then "+"
    else PercentBytes(Utf8(c as int))
  }

  /** The serialization of one name or value. */
  function Encode(s: string): (e: string)
    ensures |e| >= |s|
    ensures forall i :: 0 <= i < |e| ==> Serialized(e[i])
  {
    if s == [] then [] else EncodeChar(s[0]) + Encode(s[1..])
  }

  /** A string of unreserved characters serializes to itself. */
  lemma {:induction false} EncodeUnreserved(s: string)
    requires forall i :: 0 <= i < |s| ==> Unreserved(s[i])
    ensures Encode(s) == s
  {
    if s != [] {
      EncodeUnreserved(s[1..]);
    }
  }

  /** Encoding works character by character. */
  lemma {:induction false} EncodeConcat(a: string, b: string)
    ensures Encode(a + b) == Encode(a) + Encode(b)
  {
    if a != [] {
      assert (a + b)[0] == a[0] && (a + b)[1..] == a[1..] + b;
      EncodeConcat(a[1..], b);
      assert Encode(a + b) == EncodeChar(a[0]) + (Encode(a[1..]) + Encode(b));
    } else {
      assert a + b == b;
    }
  }

  function EncodePair(p: (string, string)): string {
    Encode(p.0) + "=" + Encode(p.1)
  }

  /** `params.toString()` for the pairs in the order they were appended. */
  function Serialize(pairs: seq<(string, string)>): (s: string)
    ensures forall i :: 0 <= i < |s| ==> Serialized(s[i]) || s[i] == '=' || s[i] == '&'
  {
    if pairs == [] then ""
    else if |pairs| == 1 then EncodePair(pairs[0])
    else EncodePair(pairs[0]) + "&" + Serialize(pairs[1..])
  }

  lemma SerializeOne(p: (string, string))
    ensures Serialize([p]) == EncodePair(p)
  {
  }

  lemma SerializeTwo(p: (string, string), q: (string, string))
    ensures Serialize([p, q]) == EncodePair(p) + "&" + EncodePair(q)
  {
    assert [p, q][1..] == [q];
  }

  /** A serialized pair holds no `&`, so `&` separates exactly the pairs. */
  lemma NoAmpersandInPair(p: (string, string))
    ensures '&' !in EncodePair(p)
  {
    var n, v := Encode(p.0), Encode(p.1);
    assert forall i :: 0 <= i < |n| ==> n[i] != '&';
    assert forall i :: 0 <= i < |v| ==> v[i] != '&';
    assert '&' !in n && '&' !in v;
    assert EncodePair(p) == n + ("=" + v);
  }

  /** The query text is empty exactly when no pair was appended, and holds
      an `&` exactly when at least two were. */
  lemma {:induction false} SerializeShape(pairs: seq<(string, string)>)
    ensures Serialize(pairs) == "" <==> pairs == []
    ensures '&' in Serialize(pairs) <==> |pairs| >= 2
  {
    if pairs != [] {
      NoAmpersandInPair(pairs[0]);
      var first := EncodePair(pairs[0]);
      assert first[|Encode(pairs[0].0)|] == '=';
      if |pairs| >= 2 {
        assert (first + "&" + Serialize(pairs[1..]))[|first|] == '&';
      }
    }
  }
}
